=== FILE: README.md ===
# News sentiment and stock prices — a Dafny model

This project models the analysis core of a small Python tool. The tool scores
financial news headlines with a polarity model, aggregates the scores per
calendar day, aligns the daily sentiment with a stock's daily returns, and
summarises the correlation input. It also computes technical indicators on
the Close column: the simple moving average (SMA), the relative strength
index (RSI) and an RSI trading signal.

The model is split into modules that follow the program's structure:

- `Wrappers`: `Option`, `Result` and the program's error conditions.
- `Floats`: a pandas float cell (`Finite`, `PosInf`, `NegInf`, `NaN`) with IEEE addition and division. Division by zero yields an infinity or NaN, as numpy's does.
- `Stats`: sum, mean, minimum, maximum and squared deviation, with their bounds.
- `Series`: `rolling(window).mean()`, `shift(1)` and `pct_change()`.
- `Sentiment`: both `analyze_sentiment` functions and `get_sentiment_label`.
- `Aggregation`: the scoring of the news table, the symbol filter and `groupby('date_only').agg(mean, std, count)`.
- `Alignment`: `load_stock_data`'s `daily_return` and the inner merge of `merge_datasets`.
- `Correlation`: the parts of `calculate_correlations` that do not depend on the statistics library.
- `Technical`: `calculate_sma`, `calculate_rsi` and `get_trading_signals`.

Inputs the program reads from elsewhere are parameters:

- The polarity model (TextBlob) is a function `string -> Polarity`. It returns a score or raises.
- Parsed CSV tables are sequences of rows.
- Dates are integer day numbers, standing for the `date_only` values.
- A table that was never loaded (`None` in the source) is an `Option`.

The program's operations either return a `Result` or are total functions.
Every exception the source can raise on the modelled paths, for finite returns, is a `Failure`:

- `NewsNotLoaded`: the ValueError raised when the news table was never loaded.
- `StockNotLoaded`: the stock table was never loaded.
- `EmptySeries`: `iloc[-1]` on an empty RSI column.
- `LengthMismatch` and `TooFewObservations`: the two ValueErrors of `pearsonr`.
- `UndefinedName`: the NameError described under Findings.
- `PolarityRaised`: an exception escaping the polarity model.

Three behaviours of the code shape the model:

- `calculate_daily_sentiment` groups all headlines by date only. Only the symbol-filtered table built inside `merge_datasets` is per symbol.
- When fewer than two paired observations remain, `pearsonr` raises. When the return column had NaNs dropped and became shorter than the mean column, it raises first, for the length mismatch. These are the failures `TooFewObservations` and `LengthMismatch`.
- With a zero average loss and a positive average gain, `gain / loss` is +inf, `100 / (1 + inf)` is 0, and the RSI is exactly 100 by IEEE arithmetic. When both averages are zero the RSI is NaN, and NaN is classified as NEUTRAL.

## Model

| member | source | states |
|---|---|---|
| Sentiment.AnalyzeSentiment | src/analysis_engine.py:37-45 | a non-text headline scores 0.0; text gets the model's polarity; an exception from the model is caught and scores 0.0 |
| Sentiment.ScoreInRange | src/analysis_engine.py:37-45 | with a polarity model bounded to [-1, 1], every score, the fallbacks included, lies in [-1, 1] |
| Sentiment.AnalyzeSentimentUtility | src/sentiment_analyzer.py:7-12 | as written: non-text scores 0.0, and every text fails with the NameError of the unimported `pd` |
| Sentiment.AnalyzeSentimentUtilityFixed | src/sentiment_analyzer.py:7-12 | corrected: fails exactly when the model raises on a text headline; otherwise returns the same score as the engine's scorer |
| Sentiment.UtilityRaisesOnText | src/sentiment_analyzer.py:9 | with a model that scores the headline "Apple stock surges to record high" at 0.5, the engine scores it 0.5 while the utility scorer as written fails |
| Sentiment.GuardsAgree | src/sentiment_analyzer.py:9-10 | on non-text input, both utility scorers and the engine's scorer agree on 0.0 |
| Sentiment.SentimentLabel | src/sentiment_analyzer.py:14-21 | positive iff score > 0.1, negative iff score < -0.1, neutral iff the score lies in the closed band [-0.1, 0.1] |
| Sentiment.LabelMonotone | src/sentiment_analyzer.py:14-21 | a higher score never receives a lower label |
| Sentiment.LabelBoundaries | src/sentiment_analyzer.py:16-21 | the thresholds 0.1 and -0.1 are neutral; values just beyond them are positive and negative |
| Aggregation.ScoreHeadlines | src/analysis_engine.py:52 | one score per headline row, none dropped; date and symbol are kept row by row, and each row's score is the engine scorer's score of that row's headline |
| Aggregation.DailyMeanInRange | src/analysis_engine.py:52-56 | with a polarity model bounded to [-1, 1], every daily sentiment mean lies in [-1, 1] |
| Aggregation.ForSymbol | src/analysis_engine.py:66 | the filtered table holds exactly the rows of the symbol and is no longer than the input |
| Aggregation.ForSymbolKeepsCopies | src/analysis_engine.py:66 | the filter keeps every copy of each row of the symbol and drops every row of other symbols, so duplicates survive in the same number |
| Aggregation.SortedDates | src/analysis_engine.py:54 | the group keys are strictly ascending, and they are exactly the table's dates |
| Aggregation.GroupByDate | src/analysis_engine.py:54-56 | one row per distinct date, ascending; its dates are exactly the table's dates; each count is the size of that date's group, at least 1 |
| Aggregation.Aggregate | src/analysis_engine.py:54-56 | one aggregated row carries its date and the number of scores as its count; the std cell is NaN iff the group has one score |
| Aggregation.GroupStatistics | src/analysis_engine.py:54-56 | each group's mean lies between the least and the greatest score of that date; the std cell is NaN iff the count is 1 and is non-negative otherwise |
| Aggregation.CountsConserved | src/analysis_engine.py:54-56 | the article counts of the grouped table add up to the number of rows grouped, so no row is lost or counted twice |
| Aggregation.GroupSizesCoverAll | src/analysis_engine.py:54-56 | groups over distinct keys that cover every date have total size equal to the row count |
| Aggregation.CalculateDailySentiment | src/analysis_engine.py:47-59 | fails with NewsNotLoaded iff the news table is missing; otherwise it succeeds with one strictly ascending row per distinct headline date, its dates exactly the headlines' dates, each article count the number of headlines on that date, and the counts adding up to the number of headlines |
| Aggregation.DailyTable | src/analysis_engine.py:52-59 | grouping the scored headlines gives strictly ascending rows whose dates are the headlines' dates and whose counts are the per-date headline counts, adding up to the number of headlines |
| Aggregation.ScoredGroupSize | src/analysis_engine.py:52-56 | the group of a date in the scored table is as large as the number of headlines on that date |
| Aggregation.SymbolDailySentiment | src/analysis_engine.py:66-70 | the per-symbol table has one row per distinct date of the symbol's headlines; its order, dates and counts are stated by SymbolAggregation |
| Aggregation.SymbolAggregation | src/analysis_engine.py:66-70 | the per-symbol table has one strictly ascending row per date of that symbol's headlines; each count is the number of the symbol's headlines on that date, at least 1, and the counts add up to the symbol's headline count |
| Aggregation.SymbolGroupSize | src/analysis_engine.py:66-69 | the group of a date in the symbol-filtered table is as large as the number of that symbol's headlines on that date |
| Alignment.LoadStock | src/analysis_engine.py:34 | date and Close are copied row by row; the first daily return is NaN; later ones are (close - previous) / previous whenever the previous close is non-zero |
| Alignment.ReturnsOfCloses | src/analysis_engine.py:34 | the return column is as long as the price table, NaN in row 0, and (close - previous) / previous wherever the previous close is non-zero |
| Alignment.InnerJoin | src/analysis_engine.py:73-78 | every merged row is dated by a date present in both the grouped table and the stock table; membership and order are stated by JoinMembership and JoinAscending |
| Alignment.MatchesFacts | src/analysis_engine.py:73-78 | a grouped row merges with exactly the stock rows of its date; it merges with at least one if its date has a price, and with at most one if stock dates are unique |
| Alignment.JoinMembership | src/analysis_engine.py:73-78 | a row is in the merged table iff it pairs a grouped row with a stock row of the same date |
| Alignment.JoinDates | src/analysis_engine.py:73-78 | the merged dates are the intersection of the sentiment dates and the stock dates |
| Alignment.JoinAscending | src/analysis_engine.py:73-78 | with ascending grouped dates and unique stock dates, merged rows are strictly ascending by date and dated by grouped rows |
| Alignment.MergeDatasets | src/analysis_engine.py:61-79 | fails with NewsNotLoaded, then StockNotLoaded; otherwise the merged dates are the symbol's news dates intersected with the stock dates, strictly ascending when stock dates are unique |
| Correlation.ReturnsPresent | src/analysis_engine.py:89 | the dropped return column is no longer than the table, and equally long iff no return is NaN |
| Correlation.EarliestDate | src/analysis_engine.py:102 | a merged date no greater than any other merged date |
| Correlation.LatestDate | src/analysis_engine.py:102 | a merged date no less than any other merged date |
| Correlation.CalculateCorrelations | src/analysis_engine.py:81-105 | fails with LengthMismatch iff some return is NaN; fails with TooFewObservations iff fewer than two rows remain and none is NaN; succeeds iff there are at least two rows and no return is NaN, and then sample_size is the row count and the date range spans the least to the greatest merged date |
| Correlation.AscendingSummary | src/analysis_engine.py:101-102 | on strictly ascending dates, the row count equals the number of distinct dates, and the range runs from the first row to the last |
| Correlation.Pipeline | src/analysis_engine.py:61-79 | loading prices and merging them with one symbol's news gives exactly the days with both the symbol's news and a price, in strictly ascending order when stock dates are unique |
| Correlation.PipelineSummary | src/analysis_engine.py:61-105 | with unique stock dates, sample_size counts the days that have both symbol news and a price, and the date range runs from the first merged row to the last |
| Correlation.FirstTradingDayRaises | src/analysis_engine.py:87-90 | when the symbol has news on the first day of the price file, the NaN that `pct_change` puts in the first return (line 34) survives the merge, and `pearsonr` fails with LengthMismatch |
| Correlation.JoinExample | src/analysis_engine.py:73-78 | sentiment on days 1, 2, 3 and prices on days 2, 3, 4 merge into exactly two rows, days 2 and 3 |
| Series.RollingMean | src/analysis_engine.py:133 | the reference rolling mean is as long as its input; its rows are stated by RollingMeanSliding and SmaShape |
| Series.RollingMeanSliding | src/analysis_engine.py:133 | the one-pass sliding-sum computation of the rolling mean equals the reference definition: NaN before a full window, the window's mean after it |
| Series.PctChange | src/analysis_engine.py:34 | row 0 is NaN; later rows are the relative change when the previous value is non-zero, and NaN or a signed infinity when it is zero |
| Series.PctChangeRecovers | src/analysis_engine.py:34 | the change inverts: one plus the return is the ratio of the current close to the previous one, whenever the previous close is non-zero |
| Technical.Sma | src/analysis_engine.py:131-134 | the SMA is as long as the Close column; its rows are stated by SmaShape |
| Technical.SmaShape | src/analysis_engine.py:131-134 | the SMA is as long as the Close column; NaN before the first full window; then the window's mean, between the window's minimum and maximum |
| Technical.SmaExample | tests/test_analysis_engine.py:44-57 | on the ten-day sample series with window 5, rows 0 to 3 are NaN and row 4 is 103 |
| Technical.SampleDefaultWindows | src/analysis_engine.py:131-143 | on the ten-day sample series, the default 20-day SMA is NaN in all ten rows and the default 14-day RSI yields the signal NEUTRAL |
| Technical.Diff | src/analysis_engine.py:138 | the change column is as long as the Close column, NaN in row 0, and the difference from the previous close in every later row |
| Technical.Gains | src/analysis_engine.py:139 | one gain per row; its values are stated by GainsLossesSplit |
| Technical.Losses | src/analysis_engine.py:140 | one loss per row; its values are stated by GainsLossesSplit |
| Technical.GainsLossesSplit | src/analysis_engine.py:138-140 | gains and losses are non-negative, zero in the first row, and their difference is the price change with at most one of them non-zero |
| Technical.RsiOfCases | src/analysis_engine.py:141-142 | a positive loss gives 100·g/(g+l) in [0, 100); zero loss with a positive gain gives exactly 100; both zero give NaN |
| Technical.Rsi | src/analysis_engine.py:136-143 | the RSI is as long as the Close column; its rows are stated by RsiShape and RsiDefinedIff |
| Technical.RsiShape | src/analysis_engine.py:136-143 | each RSI row is NaN before the first full window, follows the three cases on the window averages after it, and is always NaN or within [0, 100] |
| Technical.RsiDefinedIff | src/analysis_engine.py:136-143 | an RSI row is defined iff its window is full and the price changed at least once inside it |
| Technical.AveragesPositiveIff | src/analysis_engine.py:139-140 | some window average is positive iff the price changed inside the window |
| Technical.ChangeMakesAveragePositive | src/analysis_engine.py:139-140 | a price change inside the window makes the average gain or the average loss positive |
| Technical.PositiveAverageHasChange | src/analysis_engine.py:139-140 | a positive average gain or loss has a price change inside the window behind it |
| Technical.Classify | src/analysis_engine.py:151-156 | OVERSOLD iff the RSI is below 30, OVERBOUGHT iff above 70, NEUTRAL otherwise and for NaN |
| Technical.TradingSignals | src/analysis_engine.py:145-158 | no signal without an RSI column; an empty column fails; otherwise the classification of the last row |
| Technical.ShortSeriesNeutral | tests/test_analysis_engine.py:54-59 | with fewer rows than the window, the RSI signal is still produced, as NEUTRAL |
| Technical.RisingSeriesOverbought | src/analysis_engine.py:136-156 | a strictly rising price with at least two rows and at least as many rows as the window yields the signal OVERBOUGHT |
| Technical.RisingLastRsi | src/analysis_engine.py:136-143 | on a strictly rising price with at least two rows and at least as many rows as the window, the last RSI is exactly 100 |

## Left out

- The polarity model (TextBlob) is foreign code. It is the parameter `polarity`, and scores are whatever it returns.
- CSV reading and date parsing (`read_csv`, `to_datetime`, `.dt.date`) are left out. Dates are already day numbers.
- Aggregation.CalculateDailySentiment and Aggregation.SymbolAggregation assume every headline has a date. In the source a blank date parses to NaT (src/analysis_engine.py:24-25) and `groupby` drops NaT keys, so there the article counts add up to the number of dated headlines only.
- Correlation.CalculateCorrelations: its success case assumes non-zero closes, so that every daily return is finite. A zero close makes the next return infinite, and some releases of the statistics library reject an infinite value inside `pearsonr`. How `pearsonr` handles infinite returns is not modelled: the model lets such a table succeed.
- The Pearson and Spearman coefficients and p-values are not modelled, since they need the statistics library. The model covers only when `pearsonr` raises, the sample size and the date range.
- `spearmanr` is only reached after `pearsonr` has accepted its inputs, and it raises on none of those, so it adds no failure of its own.
- `round(4)` on the grouped statistics is not modelled. Values are exact reals, and floating-point rounding is left out throughout.
- Aggregation.GroupByDate: the std column is modelled as the sample variance. Dafny's reals have no square root. The variance is NaN exactly where the std is, and non-negative where it is defined.
- The default windows of `calculate_sma` (20) and `calculate_rsi` (14) are the constants `SmaDefaultWindow` and `RsiDefaultWindow`. The functions take the window as a parameter, and `get_trading_signals` reads whichever RSI column was computed last.
- Signed zero is not modelled. A zero divisor counts as +0.
- Missing Close values are not modelled. The Close column is assumed complete.
- A negative rolling window makes pandas raise. The window is a natural number here.
- `generate_report` and `describe()` are summary printing and are left out.
- `warnings.filterwarnings` and the `print` in the engine's except branch are left out.
- The lazy call of `merge_datasets()` (default symbol `'AAPL'`) inside `calculate_correlations` is left out. `CalculateCorrelations` takes the merged table, and `Pipeline` builds it for a given symbol.
- The objects' mutable state (`news_data`, `merged_data`, `indicators` and `correlation_results`) is not modelled as fields. Each operation takes its inputs and returns its outputs.
- The Open, High, Low and Volume columns are not modelled, because no modelled operation reads them.
- `src/data_loader.py` is not part of this model.
- A stock table whose rows are not records is not modelled. `self.stock_data[...]` on a missing table raises `TypeError`, which is modelled as `StockNotLoaded`.

## Findings

| source | as written | input that shows it | evidently intended | confidence | as-written member | corrected member |
|---|---|---|---|---|---|---|
| src/sentiment_analyzer.py:9 | the guard calls `pd.isna`, but the module imports only TextBlob, so every string argument raises NameError | the string "Apple stock surges to record high" | the same guard as the engine's scorer: non-strings score 0.0 and strings are passed to the polarity model | high, not executed | Sentiment.AnalyzeSentimentUtility (shown by Sentiment.UtilityRaisesOnText) | Sentiment.AnalyzeSentimentUtilityFixed |

=== FILE: aggregation.dfy ===
/**
  Daily sentiment aggregation: score every headline, keep one symbol's rows,
  and group them by calendar date into mean, sample variance and count.
 */
module Aggregation {
  import opened Wrappers
  import opened Floats
  import opened Stats
  import opened Sentiment

  /** A calendar day: the UTC date of a timestamp, as a day number. */
  type Date = int

  /** A row of the news table: the headline cell, its date and its stock symbol. */
  datatype Headline = Headline(headline: Cell, date: Date, stock: string)

  /** A news row once its `sentiment_score` column is filled in. */
  datatype ScoredRow = ScoredRow(date: Date, stock: string, score: real)

  /** One row of the grouped table. `sampleVariance` is the square of
      pandas' `sentiment_std` (ddof = 1); the square root is not modelled. */
  datatype DailySentiment = DailySentiment(date: Date, mean: real, sampleVariance: Float, count: nat)

  /** `news['headline'].apply(analyze_sentiment)`: every row scored, none dropped. */
  function ScoreHeadlines(news: seq<Headline>, polarity: string -> Polarity): (rows: seq<ScoredRow>)
    ensures |rows| == |news|
    ensures forall i :: 0 <= i < |news| ==> rows[i].date == news[i].date && rows[i].stock == news[i].stock
    ensures forall i :: 0 <= i < |news| ==> rows[i].score == AnalyzeSentiment(news[i].headline, polarity)
  {
    seq(|news|, i requires 0 <= i < |news| =>
      ScoredRow(news[i].date, news[i].stock, AnalyzeSentiment(news[i].headline, polarity)))
  }

  /** `news[news['stock'] == symbol]`: the rows of one symbol, order kept. */
  function ForSymbol(rows: seq<ScoredRow>, symbol: string): (r: seq<ScoredRow>)
    ensures |r| <= |rows|
    ensures forall x :: x in r <==> x in rows && x.stock == symbol
  {
    if |rows| == 0 then []
    else
      var last := rows[|rows| - 1];
      assert rows == rows[..|rows| - 1] + [last];
      ForSymbol(rows[..|rows| - 1], symbol) + (if last.stock == symbol then [last] else [])
  }

  /** The filter drops no copy: a row of the symbol occurs in the result as
      many times as in the input, any other row not at all. */
  lemma {:induction false} ForSymbolKeepsCopies(rows: seq<ScoredRow>, symbol: string)
    ensures forall x :: multiset(ForSymbol(rows, symbol))[x] == if x.stock == symbol then multiset(rows)[x] else 0
  {
    if |rows| > 0 {
      var init, last := rows[..|rows| - 1], rows[|rows| - 1];
      assert rows == init + [last];
      ForSymbolKeepsCopies(init, symbol);
    }
  }

  /** The dates occurring in a table. */
  function Dates(rows: seq<ScoredRow>): (ds: set<Date>) {
    set i | 0 <= i < |rows| :: rows[i].date
  }

  /** The scores of the rows dated `d`, in table order: one group of the groupby. */
  function ScoresOn(rows: seq<ScoredRow>, d: Date): (scores: seq<real>) {
    if |rows| == 0 then []
    else
      var last := rows[|rows| - 1];
      ScoresOn(rows[..|rows| - 1], d) + (if last.date == d then [last.score] else [])
  }

  /** Appending a row extends the group of its date, and only that one. */
  lemma ScoresOnSnoc(rows: seq<ScoredRow>, x: ScoredRow, d: Date)
    ensures ScoresOn(rows + [x], d) == ScoresOn(rows, d) + if x.date == d then [x.score] else []
  {
    assert (rows + [x])[..|rows|] == rows;
  }

  /** Every score of a group is a score of the table. */
  lemma {:induction false} ScoresOnWithin(rows: seq<ScoredRow>, d: Date, lo: real, hi: real)
    requires forall k :: 0 <= k < |rows| ==> lo <= rows[k].score <= hi
    ensures forall j :: 0 <= j < |ScoresOn(rows, d)| ==> lo <= ScoresOn(rows, d)[j] <= hi
  {
    if |rows| > 0 {
      ScoresOnWithin(rows[..|rows| - 1], d, lo, hi);
    }
  }

  /** Every date of the table has a non-empty group. */
  lemma {:induction false} GroupNonEmpty(rows: seq<ScoredRow>, d: Date)
    requires d in Dates(rows)
    ensures |ScoresOn(rows, d)| > 0
  {
    var init := rows[..|rows| - 1];
    if rows[|rows| - 1].date != d {
      var i :| 0 <= i < |rows| && rows[i].date == d;
      assert init[i].date == d;
      GroupNonEmpty(init, d);
    }
  }

  predicate StrictlyAscending(ds: seq<Date>) {
    forall i, j :: 0 <= i < j < |ds| ==> ds[i] < ds[j]
  }

  /** The rows of a grouped table are strictly ascending by date. */
  predicate DatesAscending(r: seq<DailySentiment>) {
    forall i, j :: 0 <= i < j < |r| ==> r[i].date < r[j].date
  }

  /** Inserts a date into an ascending list of distinct dates. */
  function Insert(ds: seq<Date>, d: Date): (r: seq<Date>)
    requires StrictlyAscending(ds)
    ensures StrictlyAscending(r)
    ensures forall x :: x in r <==> x in ds || x == d
  {
    if |ds| == 0 then [d]
    else if d < ds[0] then [d] + ds
    else if d == ds[0] then ds
    else
      var rest := Insert(ds[1..], d);
      assert forall k :: 0 <= k < |rest| ==> ds[0] < rest[k] by {
        forall k | 0 <= k < |rest| ensures ds[0] < rest[k] {
          assert rest[k] in rest;
          if rest[k] != d {
            assert rest[k] in ds[1..];
            var j :| 0 <= j < |ds[1..]| && ds[1..][j] == rest[k];
            assert ds[j + 1] == rest[k];
          }
        }
      }
      [ds[0]] + rest
  }

  /** The group keys of `groupby('date_only')`: each date once, ascending. */
  function SortedDates(rows: seq<ScoredRow>): (ds: seq<Date>)
    ensures StrictlyAscending(ds)
    ensures forall d :: d in ds <==> d in Dates(rows)
  {
    if |rows| == 0 then []
    else
      var init := rows[..|rows| - 1];
      var ds := Insert(SortedDates(init), rows[|rows| - 1].date);
      assert forall d :: d in Dates(rows) <==> d in Dates(init) || d == rows[|rows| - 1].date by {
        forall d | d in Dates(rows) ensures d in Dates(init) || d == rows[|rows| - 1].date {
          var i :| 0 <= i < |rows| && rows[i].date == d;
          if i < |rows| - 1 {
            assert init[i].date == d;
          }
        }
        forall d | d in Dates(init) ensures d in Dates(rows) {
          var i :| 0 <= i < |init| && init[i].date == d;
          assert rows[i].date == d;
        }
      }
      ds
  }

  /** mean, std (as its square, ddof = 1) and count of one non-empty group. */
  function Aggregate(d: Date, scores: seq<real>): (g: DailySentiment)
    requires |scores| > 0
    ensures g.date == d && g.count == |scores|
    ensures g.sampleVariance == NaN <==> |scores| == 1
  {
    var m := Mean(scores);
    var variance := if |scores| == 1 then NaN else Finite(SquaredDeviation(scores, m) / (|scores| - 1) as real);
    DailySentiment(d, m, variance, |scores|)
  }

  /** The grouped table for the keys `ds`, in the order of `ds`. */
  function Groups(ds: seq<Date>, rows: seq<ScoredRow>): (r: seq<DailySentiment>)
    requires forall i :: 0 <= i < |ds| ==> ds[i] in Dates(rows)
    ensures |r| == |ds|
    ensures forall i :: 0 <= i < |ds| ==>
              |ScoresOn(rows, ds[i])| > 0 && r[i] == Aggregate(ds[i], ScoresOn(rows, ds[i]))
  {
    forall i | 0 <= i < |ds| ensures |ScoresOn(rows, ds[i])| > 0 {
      GroupNonEmpty(rows, ds[i]);
    }
    seq(|ds|, i requires 0 <= i < |ds| => Aggregate(ds[i], ScoresOn(rows, ds[i])))
  }

  /** `groupby('date_only').agg(mean, std, count)`: one row per distinct
      date, ascending, each summarizing that date's scores. */
  function GroupByDate(rows: seq<ScoredRow>): (r: seq<DailySentiment>)
    ensures |r| == |Dates(rows)|
    ensures DatesAscending(r)
    ensures GroupDates(r) == Dates(rows)
    ensures forall i :: 0 <= i < |r| ==> 1 <= r[i].count == |ScoresOn(rows, r[i].date)|
  {
    var ds := SortedDates(rows);
    DistinctLength(ds, Dates(rows));
    var r := Groups(ds, rows);
    KeyedDates(r, ds);
    r
  }

  /** A table whose rows carry the keys `ds`, in order, has exactly those dates. */
  lemma KeyedDates(r: seq<DailySentiment>, ds: seq<Date>)
    requires |r| == |ds| && forall i :: 0 <= i < |ds| ==> r[i].date == ds[i]
    ensures forall d :: d in GroupDates(r) <==> d in ds
  {
    forall d | d in ds ensures d in GroupDates(r) {
      var i :| 0 <= i < |ds| && ds[i] == d;
      assert r[i].date == d;
    }
  }

  /** The dates of a grouped table. */
  function GroupDates(groups: seq<DailySentiment>): (ds: set<Date>) {
    set i | 0 <= i < |groups| :: groups[i].date
  }

  /** A list of distinct values has as many entries as its set of values. */
  lemma {:induction false} DistinctLength(ds: seq<Date>, s: set<Date>)
    requires StrictlyAscending(ds)
    requires forall d :: d in ds <==> d in s
    ensures |ds| == |s|
  {
    if |ds| > 0 {
      var init := ds[..|ds| - 1];
      var last := ds[|ds| - 1];
      assert last in s;
      forall d ensures d in init <==> d in s - {last} {
        if d in init {
          var k :| 0 <= k < |init| && init[k] == d;
          assert ds[k] < last;
        }
        if d in s - {last} {
          assert d in ds;
          var k :| 0 <= k < |ds| && ds[k] == d;
          assert k < |ds| - 1;
          assert init[k] == d;
        }
      }
      DistinctLength(init, s - {last});
      assert |s - {last}| == |s| - 1;
      assert |ds| == |init| + 1;
    } else {
      assert forall d :: d !in s;
      assert s == {};
    }
  }

  /** Each group's mean lies between the least and the greatest score of the
      group, and its variance is NaN exactly for single-headline days and
      non-negative otherwise. */
  lemma GroupStatistics(rows: seq<ScoredRow>, i: nat)
    requires i < |GroupByDate(rows)|
    ensures var g := GroupByDate(rows)[i];
            var scores := ScoresOn(rows, g.date);
            && |scores| > 0
            && Min(scores) <= g.mean <= Max(scores)
            && (g.sampleVariance == NaN <==> g.count == 1)
            && (g.count > 1 ==> g.sampleVariance.Finite? && 0.0 <= g.sampleVariance.v)
  {
    var g := GroupByDate(rows)[i];
    var scores := ScoresOn(rows, g.date);
    assert g == Aggregate(g.date, scores);
    AggregateStatistics(g.date, scores);
  }

  lemma AggregateStatistics(d: Date, scores: seq<real>)
    requires |scores| > 0
    ensures var g := Aggregate(d, scores);
            && Min(scores) <= g.mean <= Max(scores)
            && (g.sampleVariance == NaN <==> g.count == 1)
            && (g.count > 1 ==> g.sampleVariance.Finite? && 0.0 <= g.sampleVariance.v)
  {
    MeanWithinRange(scores);
    if |scores| > 1 {
      VarianceNonNegative(SquaredDeviation(scores, Mean(scores)), (|scores| - 1) as real) by {
        SquaredDeviationNonNegative(scores, Mean(scores));
      }
    }
  }

  lemma VarianceNonNegative(ss: real, n: real)
    requires 0.0 <= ss && 0.0 < n
    ensures 0.0 <= ss / n
  {
  }

  /** The sum of the `article_count` column. */
  function CountSum(groups: seq<DailySentiment>): (n: nat) {
    if |groups| == 0 then 0 else CountSum(groups[..|groups| - 1]) + groups[|groups| - 1].count
  }

  /** How many entries of `ds` equal `d`. */
  function Occurrences(ds: seq<Date>, d: Date): (n: nat) {
    if |ds| == 0 then 0
    else Occurrences(ds[..|ds| - 1], d) + (if ds[|ds| - 1] == d then 1 else 0)
  }

  /** The total size of the groups of the keys `ds`. */
  function GroupSizes(ds: seq<Date>, rows: seq<ScoredRow>): (n: nat) {
    if |ds| == 0 then 0
    else GroupSizes(ds[..|ds| - 1], rows) + |ScoresOn(rows, ds[|ds| - 1])|
  }

  /** Appending a row grows by one the group of its date, and only that one. */
  lemma {:induction false} GroupSizesSnoc(ds: seq<Date>, rows: seq<ScoredRow>, x: ScoredRow)
    ensures GroupSizes(ds, rows + [x]) == GroupSizes(ds, rows) + Occurrences(ds, x.date)
  {
    assert (rows + [x])[..|rows|] == rows;
    if |ds| > 0 {
      GroupSizesSnoc(ds[..|ds| - 1], rows, x);
    }
  }

  /** In a list of distinct dates each date occurs once or not at all. */
  lemma {:induction false} OccursOnce(ds: seq<Date>, d: Date)
    requires StrictlyAscending(ds)
    ensures Occurrences(ds, d) == if d in ds then 1 else 0
  {
    if |ds| > 0 {
      var init := ds[..|ds| - 1];
      OccursOnce(init, d);
      if d == ds[|ds| - 1] {
        assert d !in init by {
          forall k | 0 <= k < |init| ensures init[k] != d {
            assert ds[k] < ds[|ds| - 1];
          }
        }
      } else {
        assert d in ds <==> d in init by {
          assert ds == init + [ds[|ds| - 1]];
        }
      }
    }
  }

  /** Grouping over distinct keys that cover every date loses and duplicates no row. */
  lemma {:induction false} GroupSizesCoverAll(ds: seq<Date>, rows: seq<ScoredRow>)
    requires StrictlyAscending(ds)
    requires forall d :: d in Dates(rows) ==> d in ds
    ensures GroupSizes(ds, rows) == |rows|
  {
    if |rows| == 0 {
      GroupSizesEmpty(ds);
    } else {
      var init, x := rows[..|rows| - 1], rows[|rows| - 1];
      assert rows == init + [x];
      forall d | d in Dates(init) ensures d in ds {
        var k :| 0 <= k < |init| && init[k].date == d;
        assert rows[k].date == d;
      }
      GroupSizesCoverAll(ds, init);
      GroupSizesSnoc(ds, init, x);
      assert x.date in Dates(rows);
      OccursOnce(ds, x.date);
    }
  }

  lemma {:induction false} GroupSizesEmpty(ds: seq<Date>)
    ensures GroupSizes(ds, []) == 0
  {
    if |ds| > 0 {
      GroupSizesEmpty(ds[..|ds| - 1]);
    }
  }

  lemma {:induction false} CountSumOfGroups(ds: seq<Date>, rows: seq<ScoredRow>)
    requires forall i :: 0 <= i < |ds| ==> ds[i] in Dates(rows)
    ensures CountSum(Groups(ds, rows)) == GroupSizes(ds, rows)
  {
    if |ds| > 0 {
      var init := ds[..|ds| - 1];
      assert Groups(init, rows) == Groups(ds, rows)[..|ds| - 1];
      CountSumOfGroups(init, rows);
    }
  }

  /** Counts are conserved: the `article_count` column sums to the number of
      rows grouped. */
  lemma CountsConserved(rows: seq<ScoredRow>)
    ensures CountSum(GroupByDate(rows)) == |rows|
  {
    var ds := SortedDates(rows);
    CountSumOfGroups(ds, rows);
    GroupSizesCoverAll(ds, rows);
  }

  /** `calculate_daily_sentiment`: raises unless the news table is loaded;
      otherwise scores every headline and groups ALL rows by date, across
      symbols: one ascending row per headline date, whose count is the
      number of headlines on that date. */
  function CalculateDailySentiment(news: Option<seq<Headline>>, polarity: string -> Polarity): (r: Result<seq<DailySentiment>>)
    ensures news.None? <==> r == Failure(NewsNotLoaded)
    ensures news.Some? ==>
              && r.Success?
              && DatesAscending(r.value)
              && GroupDates(r.value) == NewsDates(news.value)
              && (forall i :: 0 <= i < |r.value| ==> r.value[i].count == CountOn(news.value, r.value[i].date))
              && CountSum(r.value) == |news.value|
  {
    match news
    case None => Failure(NewsNotLoaded)
    case Some(table) =>
      DailyTable(table, polarity);
      Success(GroupByDate(ScoreHeadlines(table, polarity)))
  }

  /** The dates of the news table. */
  function NewsDates(news: seq<Headline>): (ds: set<Date>) {
    set k | 0 <= k < |news| :: news[k].date
  }

  /** The number of headlines dated `d`, of every symbol. */
  function CountOn(news: seq<Headline>, d: Date): (n: nat) {
    if |news| == 0 then 0
    else CountOn(news[..|news| - 1], d) + (if news[|news| - 1].date == d then 1 else 0)
  }

  /** The number of headlines of `symbol` dated `d`. */
  function CountForOn(news: seq<Headline>, symbol: string, d: Date): (n: nat) {
    if |news| == 0 then 0
    else
      var last := news[|news| - 1];
      CountForOn(news[..|news| - 1], symbol, d) + (if last.stock == symbol && last.date == d then 1 else 0)
  }

  lemma DailyTable(news: seq<Headline>, polarity: string -> Polarity)
    ensures var r := GroupByDate(ScoreHeadlines(news, polarity));
            && DatesAscending(r)
            && GroupDates(r) == NewsDates(news)
            && (forall i :: 0 <= i < |r| ==> r[i].count == CountOn(news, r[i].date))
            && CountSum(r) == |news|
  {
    var rows := ScoreHeadlines(news, polarity);
    var r := GroupByDate(rows);
    CountsConserved(rows);
    ScoredDates(news, polarity);
    forall i | 0 <= i < |r| ensures r[i].count == CountOn(news, r[i].date) {
      ScoredGroupSize(news, polarity, r[i].date);
    }
  }

  /** Scoring keeps the dates of the news table. */
  lemma ScoredDates(news: seq<Headline>, polarity: string -> Polarity)
    ensures Dates(ScoreHeadlines(news, polarity)) == NewsDates(news)
  {
    var rows := ScoreHeadlines(news, polarity);
    forall d | d in NewsDates(news) ensures d in Dates(rows) {
      var k :| 0 <= k < |news| && news[k].date == d;
      assert rows[k].date == d;
    }
  }

  /** The group of a date holds one score per headline of that date. */
  lemma {:induction false} ScoredGroupSize(news: seq<Headline>, polarity: string -> Polarity, d: Date)
    ensures |ScoresOn(ScoreHeadlines(news, polarity), d)| == CountOn(news, d)
  {
    if |news| > 0 {
      var init := news[..|news| - 1];
      var rows := ScoreHeadlines(news, polarity);
      assert rows[..|news| - 1] == ScoreHeadlines(init, polarity);
      ScoredGroupSize(init, polarity, d);
    }
  }

  /** The group of a date in one symbol's table holds one score per headline
      of that symbol on that date. */
  lemma {:induction false} SymbolGroupSize(news: seq<Headline>, symbol: string, polarity: string -> Polarity, d: Date)
    ensures |ScoresOn(ForSymbol(ScoreHeadlines(news, polarity), symbol), d)| == CountForOn(news, symbol, d)
  {
    if |news| > 0 {
      var init := news[..|news| - 1];
      var rows := ScoreHeadlines(news, polarity);
      var last := rows[|news| - 1];
      assert last.stock == news[|news| - 1].stock && last.date == news[|news| - 1].date;
      assert rows[..|news| - 1] == ScoreHeadlines(init, polarity);
      var prev := ForSymbol(ScoreHeadlines(init, polarity), symbol);
      assert ForSymbol(rows, symbol) == prev + (if last.stock == symbol then [last] else []);
      SymbolGroupSize(init, symbol, polarity, d);
      if last.stock == symbol {
        ScoresOnSnoc(prev, last, d);
      } else {
        assert ForSymbol(rows, symbol) == prev;
      }
    }
  }

  /** With a polarity model bounded to [-1, 1], every daily mean lies in [-1, 1]. */
  lemma DailyMeanInRange(news: seq<Headline>, polarity: string -> Polarity, i: nat)
    requires Bounded(polarity)
    requires i < |GroupByDate(ScoreHeadlines(news, polarity))|
    ensures -1.0 <= GroupByDate(ScoreHeadlines(news, polarity))[i].mean <= 1.0
  {
    var rows := ScoreHeadlines(news, polarity);
    var g := GroupByDate(rows)[i];
    forall k | 0 <= k < |rows| ensures -1.0 <= rows[k].score <= 1.0 {
      ScoreInRange(news[k].headline, polarity);
    }
    var scores := ScoresOn(rows, g.date);
    GroupStatistics(rows, i);
    ScoresOnWithin(rows, g.date, -1.0, 1.0);
    var lo :| 0 <= lo < |scores| && Min(scores) == scores[lo];
    var hi :| 0 <= hi < |scores| && Max(scores) == scores[hi];
  }

  /** The number of headlines of one symbol. */
  function CountFor(news: seq<Headline>, symbol: string): (n: nat) {
    if |news| == 0 then 0
    else CountFor(news[..|news| - 1], symbol) + (if news[|news| - 1].stock == symbol then 1 else 0)
  }

  /** The grouped table of one symbol, as built inside `merge_datasets`. */
  function SymbolDailySentiment(news: seq<Headline>, symbol: string, polarity: string -> Polarity): (r: seq<DailySentiment>)
    ensures |r| == |SymbolDates(news, symbol)|
  {
    SymbolDatesOfRows(news, symbol, polarity);
    GroupByDate(ForSymbol(ScoreHeadlines(news, polarity), symbol))
  }

  lemma {:induction false} ForSymbolCount(news: seq<Headline>, symbol: string, polarity: string -> Polarity)
    ensures |ForSymbol(ScoreHeadlines(news, polarity), symbol)| == CountFor(news, symbol)
  {
    if |news| > 0 {
      var init := news[..|news| - 1];
      assert ScoreHeadlines(news, polarity)[..|news| - 1] == ScoreHeadlines(init, polarity);
      ForSymbolCount(init, symbol, polarity);
    }
  }

  /** The dates of one symbol's headlines. */
  function SymbolDates(news: seq<Headline>, symbol: string): (ds: set<Date>) {
    set k | 0 <= k < |news| && news[k].stock == symbol :: news[k].date
  }

  lemma SymbolDatesOfRows(news: seq<Headline>, symbol: string, polarity: string -> Polarity)
    ensures Dates(ForSymbol(ScoreHeadlines(news, polarity), symbol)) == SymbolDates(news, symbol)
  {
    var scored := ScoreHeadlines(news, polarity);
    var rows := ForSymbol(scored, symbol);
    forall d | d in Dates(rows) ensures d in SymbolDates(news, symbol) {
      var i :| 0 <= i < |rows| && rows[i].date == d;
      assert rows[i] in rows;
      var k :| 0 <= k < |scored| && scored[k] == rows[i];
      assert news[k].stock == symbol && news[k].date == d;
    }
    forall d | d in SymbolDates(news, symbol) ensures d in Dates(rows) {
      var k :| 0 <= k < |news| && news[k].stock == symbol && news[k].date == d;
      assert scored[k] in scored;
      assert scored[k] in rows;
      var i :| 0 <= i < |rows| && rows[i] == scored[k];
      assert rows[i].date == d;
    }
  }

  /** One symbol's daily table has one row per distinct date among that
      symbol's headlines, ascending; each count is the number of that
      symbol's headlines on that date, and the counts add up to the symbol's
      headline count. */
  lemma SymbolAggregation(news: seq<Headline>, symbol: string, polarity: string -> Polarity)
    ensures var r := SymbolDailySentiment(news, symbol, polarity);
            && DatesAscending(r)
            && GroupDates(r) == SymbolDates(news, symbol)
            && (forall i :: 0 <= i < |r| ==> 1 <= r[i].count == CountForOn(news, symbol, r[i].date))
            && CountSum(r) == CountFor(news, symbol)
  {
    var rows := ForSymbol(ScoreHeadlines(news, polarity), symbol);
    var r := GroupByDate(rows);
    SymbolDatesOfRows(news, symbol, polarity);
    CountsConserved(rows);
    ForSymbolCount(news, symbol, polarity);
    forall i | 0 <= i < |r| ensures r[i].count == CountForOn(news, symbol, r[i].date) {
      SymbolGroupSize(news, symbol, polarity, r[i].date);
    }
  }
}

=== FILE: alignment.dfy ===
/**
  Aligning one symbol's daily sentiment with its price history: the stock
  table with its daily returns, the inner join on the date, and the
  sample size and date range of the correlation report.
 */
module Alignment {
  import opened Wrappers
  import opened Floats
  import opened Series
  import opened Sentiment
  import opened Aggregation

  /** A row of the price file: its date and its Close (the other columns are unused). */
  datatype PriceRow = PriceRow(date: Date, close: real)

  /** A row of the loaded stock table: `date_only`, `Close`, `daily_return`. */
  datatype StockRow = StockRow(date: Date, close: real, dailyReturn: Float)

  /** A row of the merged table: the daily sentiment columns, then the stock columns. */
  datatype Aligned = Aligned(date: Date, mean: real, sampleVariance: Float, count: nat, close: real, dailyReturn: Float)

  function Closes(prices: seq<PriceRow>): (closes: seq<real>)
    ensures |closes| == |prices|
  {
    seq(|prices|, i requires 0 <= i < |prices| => prices[i].close)
  }

  /** `load_stock_data` after parsing: `daily_return` is the percentage change
      of Close over the whole file, NaN in the first row. */
  function LoadStock(prices: seq<PriceRow>): (r: seq<StockRow>)
    ensures |r| == |prices|
    ensures forall i :: 0 <= i < |r| ==> r[i].date == prices[i].date && r[i].close == prices[i].close
    ensures |r| > 0 ==> r[0].dailyReturn == NaN
    ensures forall t :: 1 <= t < |r| && prices[t - 1].close != 0.0 ==>
              r[t].dailyReturn == Finite((prices[t].close - prices[t - 1].close) / prices[t - 1].close)
  {
    var changes := PctChange(Closes(prices));
    ReturnsOfCloses(prices);
    seq(|prices|, i requires 0 <= i < |prices| => StockRow(prices[i].date, prices[i].close, changes[i]))
  }

  lemma ReturnsOfCloses(prices: seq<PriceRow>)
    ensures |PctChange(Closes(prices))| == |prices|
    ensures |prices| > 0 ==> PctChange(Closes(prices))[0] == NaN
    ensures forall t :: 1 <= t < |prices| && prices[t - 1].close != 0.0 ==>
              PctChange(Closes(prices))[t] == Finite((prices[t].close - prices[t - 1].close) / prices[t - 1].close)
  {
    var closes := Closes(prices);
    forall t | 1 <= t < |prices| && prices[t - 1].close != 0.0
      ensures PctChange(closes)[t] == Finite((prices[t].close - prices[t - 1].close) / prices[t - 1].close)
    {
      assert closes[t - 1] == prices[t - 1].close && closes[t] == prices[t].close;
    }
  }

  function StockDates(stock: seq<StockRow>): (ds: set<Date>) {
    set j | 0 <= j < |stock| :: stock[j].date
  }

  function AlignedDates(merged: seq<Aligned>): (ds: set<Date>) {
    set k | 0 <= k < |merged| :: merged[k].date
  }

  /** Stock dates are unique: no trading day appears twice in the file. */
  predicate UniqueDates(stock: seq<StockRow>) {
    forall i, j :: 0 <= i < j < |stock| ==> stock[i].date != stock[j].date
  }

  /** The rows of a merged table are strictly ascending by date. */
  predicate AlignedAscending(merged: seq<Aligned>) {
    forall k, l :: 0 <= k < l < |merged| ==> merged[k].date < merged[l].date
  }

  function Combine(g: DailySentiment, s: StockRow): (a: Aligned) {
    Aligned(g.date, g.mean, g.sampleVariance, g.count, s.close, s.dailyReturn)
  }

  /** The merged rows contributed by one grouped row: one per stock row of
      the same date, in stock-table order. */
  function Matches(g: DailySentiment, stock: seq<StockRow>): (r: seq<Aligned>) {
    if |stock| == 0 then []
    else
      var last := stock[|stock| - 1];
      Matches(g, stock[..|stock| - 1]) + (if last.date == g.date then [Combine(g, last)] else [])
  }

  /** Each match pairs the grouped row with a stock row of its date; every
      such stock row yields one, so a date present in the stock table gives
      at least one match, and exactly one when stock dates are unique. */
  lemma {:induction false} MatchesFacts(g: DailySentiment, stock: seq<StockRow>)
    ensures forall k :: 0 <= k < |Matches(g, stock)| ==> Matches(g, stock)[k].date == g.date
    ensures forall a :: a in Matches(g, stock) <==>
              exists j :: 0 <= j < |stock| && stock[j].date == g.date && a == Combine(g, stock[j])
    ensures g.date in StockDates(stock) ==> |Matches(g, stock)| > 0
    ensures UniqueDates(stock) ==> |Matches(g, stock)| <= 1
  {
    if |stock| > 0 {
      var init, last := stock[..|stock| - 1], stock[|stock| - 1];
      MatchesFacts(g, init);
      assert forall j :: 0 <= j < |init| ==> init[j] == stock[j];
      if g.date in StockDates(stock) && last.date != g.date {
        var j :| 0 <= j < |stock| && stock[j].date == g.date;
        assert init[j].date == g.date;
      }
      if UniqueDates(stock) && last.date == g.date {
        assert g.date !in StockDates(init) by {
          forall j | 0 <= j < |init| ensures init[j].date != g.date {
            assert stock[j].date != stock[|stock| - 1].date;
          }
        }
        MatchesEmpty(g, init);
      }
    }
  }

  lemma {:induction false} MatchesEmpty(g: DailySentiment, stock: seq<StockRow>)
    requires g.date !in StockDates(stock)
    ensures Matches(g, stock) == []
  {
    if |stock| > 0 {
      var init := stock[..|stock| - 1];
      assert g.date !in StockDates(init) by {
        forall j | 0 <= j < |init| ensures init[j].date != g.date {
          assert init[j] == stock[j];
        }
      }
      MatchesEmpty(g, init);
    }
  }

  /** `pd.merge(daily, stock, on='date_only', how='inner')`: the grouped rows
      in their order, each followed by its matches in stock order. */
  function InnerJoin(groups: seq<DailySentiment>, stock: seq<StockRow>): (merged: seq<Aligned>)
    ensures forall k :: 0 <= k < |merged| ==>
              merged[k].date in GroupDates(groups) && merged[k].date in StockDates(stock)
  {
    if |groups| == 0 then []
    else
      var init, last := groups[..|groups| - 1], groups[|groups| - 1];
      assert forall d :: d in GroupDates(init) ==> d in GroupDates(groups) by {
        forall d | d in GroupDates(init) ensures d in GroupDates(groups) {
          var i :| 0 <= i < |init| && init[i].date == d;
          assert groups[i].date == d;
        }
      }
      assert last.date in GroupDates(groups);
      MatchesFacts(last, stock);
      MatchesDated(last, stock);
      InnerJoin(init, stock) + Matches(last, stock)
  }

  /** A grouped row with a match has its date among the stock dates. */
  lemma MatchesDated(g: DailySentiment, stock: seq<StockRow>)
    ensures |Matches(g, stock)| > 0 ==> g.date in StockDates(stock)
  {
    if g.date !in StockDates(stock) {
      MatchesEmpty(g, stock);
    }
  }

  /** A merged row is exactly a grouped row paired with a stock row of the same date. */
  lemma {:induction false} JoinMembership(groups: seq<DailySentiment>, stock: seq<StockRow>, a: Aligned)
    ensures a in InnerJoin(groups, stock) <==>
              exists i, j :: 0 <= i < |groups| && 0 <= j < |stock| &&
                groups[i].date == stock[j].date && a == Combine(groups[i], stock[j])
  {
    if |groups| > 0 {
      var init, last := groups[..|groups| - 1], groups[|groups| - 1];
      JoinMembership(init, stock, a);
      assert forall i :: 0 <= i < |init| ==> init[i] == groups[i];
      MatchesFacts(last, stock);
      if a in InnerJoin(groups, stock) && a !in InnerJoin(init, stock) {
        assert a in Matches(last, stock);
        var j :| 0 <= j < |stock| && stock[j].date == last.date && a == Combine(last, stock[j]);
        assert groups[|groups| - 1] == last;
      }
      if exists i, j :: 0 <= i < |groups| && 0 <= j < |stock| &&
           groups[i].date == stock[j].date && a == Combine(groups[i], stock[j]) {
        var i, j :| 0 <= i < |groups| && 0 <= j < |stock| &&
          groups[i].date == stock[j].date && a == Combine(groups[i], stock[j]);
        if i == |groups| - 1 {
          assert a in Matches(last, stock);
        } else {
          assert init[i] == groups[i];
        }
      }
    }
  }

  /** The merged dates are the intersection of the sentiment dates and the stock dates. */
  lemma JoinDates(groups: seq<DailySentiment>, stock: seq<StockRow>)
    ensures AlignedDates(InnerJoin(groups, stock)) == GroupDates(groups) * StockDates(stock)
  {
    var m := InnerJoin(groups, stock);
    forall d | d in AlignedDates(m) ensures d in GroupDates(groups) * StockDates(stock) {
      var k :| 0 <= k < |m| && m[k].date == d;
      assert m[k] in m;
      JoinMembership(groups, stock, m[k]);
      var i, j :| 0 <= i < |groups| && 0 <= j < |stock| &&
        groups[i].date == stock[j].date && m[k] == Combine(groups[i], stock[j]);
    }
    forall d | d in GroupDates(groups) * StockDates(stock) ensures d in AlignedDates(m) {
      var i :| 0 <= i < |groups| && groups[i].date == d;
      var j :| 0 <= j < |stock| && stock[j].date == d;
      var a := Combine(groups[i], stock[j]);
      JoinMembership(groups, stock, a);
      var k :| 0 <= k < |m| && m[k] == a;
    }
  }

  /** With ascending grouped dates and unique stock dates, the merged rows
      are strictly ascending by date: one row per common date. */
  lemma {:induction false} JoinAscending(groups: seq<DailySentiment>, stock: seq<StockRow>)
    requires DatesAscending(groups)
    requires UniqueDates(stock)
    ensures AlignedAscending(InnerJoin(groups, stock))
    ensures forall k :: 0 <= k < |InnerJoin(groups, stock)| ==>
              InnerJoin(groups, stock)[k].date in GroupDates(groups)
  {
    if |groups| > 0 {
      var init, last := groups[..|groups| - 1], groups[|groups| - 1];
      JoinAscending(init, stock);
      var left, right := InnerJoin(init, stock), Matches(last, stock);
      MatchesFacts(last, stock);
      assert forall k :: 0 <= k < |left| ==> left[k].date < last.date by {
        forall k | 0 <= k < |left| ensures left[k].date < last.date {
          var i :| 0 <= i < |init| && init[i].date == left[k].date;
          assert groups[i].date == init[i].date;
        }
      }
      assert GroupDates(init) <= GroupDates(groups) by {
        forall d | d in GroupDates(init) ensures d in GroupDates(groups) {
          var i :| 0 <= i < |init| && init[i].date == d;
          assert groups[i].date == d;
        }
      }
      assert last.date in GroupDates(groups) by {
        assert groups[|groups| - 1].date == last.date;
      }
      var m := left + right;
      assert m == InnerJoin(groups, stock);
      forall k, l | 0 <= k < l < |m| ensures m[k].date < m[l].date {
        if l < |left| {
          assert m[k] == left[k] && m[l] == left[l];
          assert left[k].date < left[l].date;
        } else {
          assert k < |left|;
          assert m[k] == left[k] && m[l] == right[l - |left|];
          assert right[l - |left|].date == last.date;
          assert left[k].date < last.date;
        }
      }
    }
  }

  /** `merge_datasets`: raises unless news and stock are loaded; otherwise
      joins the symbol's daily sentiment with the stock table. The merged
      dates are the dates having both news of the symbol and a stock row. */
  function MergeDatasets(news: Option<seq<Headline>>, stock: Option<seq<StockRow>>, symbol: string,
                         polarity: string -> Polarity): (r: Result<seq<Aligned>>)
    ensures news.None? ==> r == Failure(NewsNotLoaded)
    ensures news.Some? && stock.None? ==> r == Failure(StockNotLoaded)
    ensures news.Some? && stock.Some? ==>
              && r.Success?
              && AlignedDates(r.value) == SymbolDates(news.value, symbol) * StockDates(stock.value)
              && (UniqueDates(stock.value) ==> AlignedAscending(r.value))
  {
    match news
    case None => Failure(NewsNotLoaded)
    case Some(table) =>
      match stock
      case None => Failure(StockNotLoaded)
      case Some(prices) =>
        var daily := SymbolDailySentiment(table, symbol, polarity);
        SymbolAggregation(table, symbol, polarity);
        JoinDates(daily, prices);
        JoinAscendingWhenUnique(daily, prices);
        Success(InnerJoin(daily, prices))
  }

  lemma JoinAscendingWhenUnique(groups: seq<DailySentiment>, stock: seq<StockRow>)
    requires DatesAscending(groups)
    ensures UniqueDates(stock) ==> AlignedAscending(InnerJoin(groups, stock))
  {
    if UniqueDates(stock) {
      JoinAscending(groups, stock);
    }
  }
}

=== FILE: correlation.dfy ===
/**
  The part of the correlation report that does not depend on the statistics
  library: whether `pearsonr` accepts its inputs, the sample size and the
  date range. The coefficients and p-values are not modelled.
 */
module Correlation {
  import opened Wrappers
  import opened Floats
  import opened Sentiment
  import opened Aggregation
  import opened Alignment

  /** `sample_size` and the two ends of `date_range`. */
  datatype CorrelationSummary = CorrelationSummary(sampleSize: nat, firstDate: Date, lastDate: Date)

  /** The length of `merged['daily_return'].dropna()`. */
  function ReturnsPresent(merged: seq<Aligned>): (n: nat)
    ensures n <= |merged|
    ensures n == |merged| <==> forall k :: 0 <= k < |merged| ==> merged[k].dailyReturn != NaN
  {
    if |merged| == 0 then 0
    else
      var init := merged[..|merged| - 1];
      assert forall k :: 0 <= k < |init| ==> init[k] == merged[k];
      ReturnsPresent(init) + (if merged[|merged| - 1].dailyReturn == NaN then 0 else 1)
  }

  /** `merged['date_only'].min()`. */
  function EarliestDate(merged: seq<Aligned>): (d: Date)
    requires |merged| > 0
    ensures forall k :: 0 <= k < |merged| ==> d <= merged[k].date
    ensures exists k :: 0 <= k < |merged| && merged[k].date == d
  {
    if |merged| == 1 then merged[0].date
    else
      var init := merged[..|merged| - 1];
      var d := EarliestDate(init);
      assert forall k :: 0 <= k < |init| ==> init[k] == merged[k];
      if merged[|merged| - 1].date < d then merged[|merged| - 1].date else d
  }

  /** `merged['date_only'].max()`. */
  function LatestDate(merged: seq<Aligned>): (d: Date)
    requires |merged| > 0
    ensures forall k :: 0 <= k < |merged| ==> merged[k].date <= d
    ensures exists k :: 0 <= k < |merged| && merged[k].date == d
  {
    if |merged| == 1 then merged[0].date
    else
      var init := merged[..|merged| - 1];
      var d := LatestDate(init);
      assert forall k :: 0 <= k < |init| ==> init[k] == merged[k];
      if merged[|merged| - 1].date > d then merged[|merged| - 1].date else d
  }

  /** `calculate_correlations`: `pearsonr` is given the mean column (never
      missing) and the return column with its NaNs dropped; it raises when
      their lengths differ, and otherwise when fewer than two pairs remain.
      On success the summary reports the merged row count and the least and
      greatest merged date. */
  function CalculateCorrelations(merged: seq<Aligned>): (r: Result<CorrelationSummary>)
    ensures r == Failure(LengthMismatch) <==> exists k :: 0 <= k < |merged| && merged[k].dailyReturn == NaN
    ensures r == Failure(TooFewObservations) <==>
              |merged| < 2 && forall k :: 0 <= k < |merged| ==> merged[k].dailyReturn != NaN
    ensures r.Success? <==> 2 <= |merged| && forall k :: 0 <= k < |merged| ==> merged[k].dailyReturn != NaN
    ensures r.Success? ==>
              && r.value.sampleSize == |merged|
              && (forall k :: 0 <= k < |merged| ==> r.value.firstDate <= merged[k].date <= r.value.lastDate)
              && (exists k :: 0 <= k < |merged| && merged[k].date == r.value.firstDate)
              && (exists k :: 0 <= k < |merged| && merged[k].date == r.value.lastDate)
  {
    if ReturnsPresent(merged) != |merged| then Failure(LengthMismatch)
    else if |merged| < 2 then Failure(TooFewObservations)
    else Success(CorrelationSummary(|merged|, EarliestDate(merged), LatestDate(merged)))
  }

  /** The merged table of the whole pipeline for one symbol. */
  function Pipeline(news: seq<Headline>, prices: seq<PriceRow>, symbol: string, polarity: string -> Polarity): (merged: seq<Aligned>)
    ensures AlignedDates(merged) == SymbolDates(news, symbol) * StockDates(LoadStock(prices))
    ensures UniqueDates(LoadStock(prices)) ==> AlignedAscending(merged)
  {
    MergeDatasets(Some(news), Some(LoadStock(prices)), symbol, polarity).value
  }

  /** With unique trading days the merged table has one row per day with
      both news of the symbol and a price, so `sample_size` counts those days,
      and the date range runs from the first merged row to the last. */
  lemma PipelineSummary(news: seq<Headline>, prices: seq<PriceRow>, symbol: string, polarity: string -> Polarity)
    requires UniqueDates(LoadStock(prices))
    ensures var merged := Pipeline(news, prices, symbol, polarity);
            && |merged| == |SymbolDates(news, symbol) * StockDates(LoadStock(prices))|
            && (CalculateCorrelations(merged).Success? ==>
                  && CalculateCorrelations(merged).value.sampleSize == |merged|
                  && CalculateCorrelations(merged).value.firstDate == merged[0].date
                  && CalculateCorrelations(merged).value.lastDate == merged[|merged| - 1].date)
  {
    SummaryOfDates(Pipeline(news, prices, symbol, polarity), SymbolDates(news, symbol) * StockDates(LoadStock(prices)));
  }

  /** A strictly ascending merged table with date set `days` has one row per
      day, and its summary spans its first row to its last. */
  lemma SummaryOfDates(merged: seq<Aligned>, days: set<Date>)
    requires AlignedAscending(merged)
    requires AlignedDates(merged) == days
    ensures |merged| == |days|
    ensures CalculateCorrelations(merged).Success? ==>
              && CalculateCorrelations(merged).value.sampleSize == |merged|
              && CalculateCorrelations(merged).value.firstDate == merged[0].date
              && CalculateCorrelations(merged).value.lastDate == merged[|merged| - 1].date
  {
    AscendingSummary(merged);
  }

  /** On a table with strictly ascending dates, every row has its own date,
      and the date range runs from the first row to the last. */
  lemma AscendingSummary(merged: seq<Aligned>)
    requires AlignedAscending(merged)
    ensures |merged| == |AlignedDates(merged)|
    ensures CalculateCorrelations(merged).Success? ==>
              && CalculateCorrelations(merged).value.firstDate == merged[0].date
              && CalculateCorrelations(merged).value.lastDate == merged[|merged| - 1].date
  {
    var ds := seq(|merged|, k requires 0 <= k < |merged| => merged[k].date);
    assert forall d :: d in ds <==> d in AlignedDates(merged) by {
      forall d | d in AlignedDates(merged) ensures d in ds {
        var k :| 0 <= k < |merged| && merged[k].date == d;
        assert ds[k] == d;
      }
    }
    DistinctLength(ds, AlignedDates(merged));
    var r := CalculateCorrelations(merged);
    if r.Success? {
      var k :| 0 <= k < |merged| && merged[k].date == r.value.firstDate;
      var l :| 0 <= l < |merged| && merged[l].date == r.value.lastDate;
      assert merged[0].date <= merged[k].date;
      assert merged[l].date <= merged[|merged| - 1].date;
    }
  }

  /** If the symbol has news on the first trading day of the price file, the
      merged table carries that day's NaN return, the dropped return column
      is shorter than the mean column, and `pearsonr` raises. */
  lemma FirstTradingDayRaises(news: seq<Headline>, prices: seq<PriceRow>, symbol: string, polarity: string -> Polarity)
    requires |prices| > 0 && prices[0].date in SymbolDates(news, symbol)
    ensures CalculateCorrelations(Pipeline(news, prices, symbol, polarity)) == Failure(LengthMismatch)
  {
    var stock := LoadStock(prices);
    var daily := SymbolDailySentiment(news, symbol, polarity);
    SymbolAggregation(news, symbol, polarity);
    var i :| 0 <= i < |daily| && daily[i].date == prices[0].date;
    var a := Combine(daily[i], stock[0]);
    JoinMembership(daily, stock, a);
    var merged := InnerJoin(daily, stock);
    assert merged == Pipeline(news, prices, symbol, polarity);
    var k :| 0 <= k < |merged| && merged[k] == a;
    assert merged[k].dailyReturn == NaN;
  }

  /** Sentiment on days 1, 2, 3 and prices on days 2, 3, 4 align on days 2 and 3 only. */
  lemma JoinExample(g1: DailySentiment, g2: DailySentiment, g3: DailySentiment,
                    s2: StockRow, s3: StockRow, s4: StockRow)
    requires g1.date == 1 && g2.date == 2 && g3.date == 3
    requires s2.date == 2 && s3.date == 3 && s4.date == 4
    ensures InnerJoin([g1, g2, g3], [s2, s3, s4]) == [Combine(g2, s2), Combine(g3, s3)]
    ensures AlignedDates(InnerJoin([g1, g2, g3], [s2, s3, s4])) == {2, 3}
  {
    var groups, stock := [g1, g2, g3], [s2, s3, s4];
    assert groups[..2] == [g1, g2] && groups[..2][..1] == [g1];
    MatchesExample(g1, g2, g3, s2, s3, s4);
    assert InnerJoin([g1], stock) == [];
    assert InnerJoin([g1, g2], stock) == [Combine(g2, s2)];
    var m := InnerJoin(groups, stock);
    assert m == [Combine(g2, s2), Combine(g3, s3)];
    assert m[0].date == 2 && m[1].date == 3;
  }

  /** The stock rows each grouped row of the join example merges with. */
  lemma MatchesExample(g1: DailySentiment, g2: DailySentiment, g3: DailySentiment,
                       s2: StockRow, s3: StockRow, s4: StockRow)
    requires g1.date == 1 && g2.date == 2 && g3.date == 3
    requires s2.date == 2 && s3.date == 3 && s4.date == 4
    ensures Matches(g1, [s2, s3, s4]) == []
    ensures Matches(g2, [s2, s3, s4]) == [Combine(g2, s2)]
    ensures Matches(g3, [s2, s3, s4]) == [Combine(g3, s3)]
  {
    var stock := [s2, s3, s4];
    assert stock[..2] == [s2, s3] && stock[..2][..1] == [s2];
    assert Matches(g1, [s2, s3]) == [] by {
      assert Matches(g1, [s2]) == [];
    }
    assert Matches(g2, [s2, s3]) == [Combine(g2, s2)] by {
      assert Matches(g2, [s2]) == [Combine(g2, s2)];
    }
    assert Matches(g3, [s2, s3]) == [Combine(g3, s3)] by {
      assert Matches(g3, [s2]) == [];
    }
  }
}

=== FILE: floats.dfy ===
/**
  Cells of a pandas column of floats. `NaN` is pandas' marker for a missing
  value; the infinities are what IEEE division by zero produces. Values are
  exact reals: rounding is not modelled. Signed zero is not modelled either.
 */
module Floats {

  datatype Float = Finite(v: real) | PosInf | NegInf | NaN

  function Neg(a: Float): (r: Float) {
    match a
    case Finite(x) => Finite(-x)
    case PosInf => NegInf
    case NegInf => PosInf
    case NaN => NaN
  }

  /** IEEE addition on the extended reals. */
  function Add(a: Float, b: Float): (r: Float) {
    if a.NaN? || b.NaN? then NaN
    else if a.Finite? && b.Finite? then Finite(a.v + b.v)
    else if (a.PosInf? && b.NegInf?) || (a.NegInf? && b.PosInf?) then NaN
    else if a.PosInf? || b.PosInf? then PosInf
    else NegInf
  }

  function Sub(a: Float, b: Float): (r: Float) {
    Add(a, Neg(b))
  }

  /** An infinity carrying the sign `positive`. */
  function Inf(positive: bool): (r: Float) {
    if positive then PosInf else NegInf
  }

  /** IEEE division on the extended reals (a zero divisor is taken as +0). */
  function Div(a: Float, b: Float): (r: Float) {
    if a.NaN? || b.NaN? then NaN
    else if a.Finite? && b.Finite? then
      if b.v != 0.0 then Finite(a.v / b.v)
      else if a.v == 0.0 then NaN
      else Inf(a.v > 0.0)
    else if a.Finite? then Finite(0.0)
    else if b.Finite? then Inf(a.PosInf? == (b.v >= 0.0))
    else NaN
  }

  /** `a < c` as Python evaluates it: false whenever `a` is NaN. */
  predicate Below(a: Float, c: real) {
    match a
    case Finite(x) => x < c
    case NegInf => true
    case _ => false
  }

  /** `a > c` as Python evaluates it: false whenever `a` is NaN. */
  predicate Above(a: Float, c: real) {
    match a
    case Finite(x) => x > c
    case PosInf => true
    case _ => false
  }
}

=== FILE: sentiment.dfy ===
/**
  Headline scoring and labelling. The polarity model (TextBlob) is foreign
  code: it is a parameter that either yields a polarity or raises.
 */
module Sentiment {
  import opened Wrappers

  /** A cell of the headline column: text, some other value (a number), or missing. */
  datatype Cell = Text(s: string) | Number(x: real) | Missing

  /** What one call of the polarity model does: return a score, or raise. */
  datatype Polarity = Scored(p: real) | Raised

  /** A polarity model whose every score lies in [-1, 1], as TextBlob's do. */
  ghost predicate Bounded(polarity: string -> Polarity) {
    forall s :: polarity(s).Scored? ==> -1.0 <= polarity(s).p <= 1.0
  }

  /** The engine's scorer: anything but text scores 0.0; text is scored by
      the model, and an exception from the model is caught and scored 0.0. */
  function AnalyzeSentiment(headline: Cell, polarity: string -> Polarity): (score: real)
    ensures !headline.Text? ==> score == 0.0
    ensures headline.Text? && polarity(headline.s).Raised? ==> score == 0.0
    ensures headline.Text? && polarity(headline.s).Scored? ==> score == polarity(headline.s).p
  {
    match headline
    case Text(s) =>
      (match polarity(s)
       case Scored(p) => p
       case Raised => 0.0)
    case _ => 0.0
  }

  /** With a bounded model every score, including the fallbacks, lies in [-1, 1]. */
  lemma ScoreInRange(headline: Cell, polarity: string -> Polarity)
    requires Bounded(polarity)
    ensures -1.0 <= AnalyzeSentiment(headline, polarity) <= 1.0
  {
    if headline.Text? && polarity(headline.s).Scored? {
      assert -1.0 <= polarity(headline.s).p <= 1.0;
    }
  }

  /** The utility module's scorer as written: its guard tests `pd.isna`
      but the module never imports `pd`, so every text raises a NameError. */
  function AnalyzeSentimentUtility(headline: Cell, polarity: string -> Polarity): (r: Result<real>)
    ensures !headline.Text? ==> r == Success(0.0)
    ensures headline.Text? ==> r == Failure(UndefinedName)
  {
    if !headline.Text? then Success(0.0)
    else Failure(UndefinedName)
  }

  /** The utility module's scorer once `pd` is imported: non-text scores 0.0,
      text is scored by the model, and an exception from the model escapes
      (this version has no try block). */
  function AnalyzeSentimentUtilityFixed(headline: Cell, polarity: string -> Polarity): (r: Result<real>)
    ensures r.Failure? <==> headline.Text? && polarity(headline.s).Raised?
    ensures r.Failure? ==> r.error == PolarityRaised
    ensures r.Success? ==> r.value == AnalyzeSentiment(headline, polarity)
  {
    match headline
    case Text(s) =>
      (match polarity(s)
       case Scored(p) => Success(p)
       case Raised => Failure(PolarityRaised))
    case _ => Success(0.0)
  }

  /** As written, the utility scorer raises on a plain headline that the
      engine scores without trouble. */
  lemma UtilityRaisesOnText(polarity: string -> Polarity)
    requires polarity("Apple stock surges to record high") == Scored(0.5)
    ensures AnalyzeSentimentUtility(Text("Apple stock surges to record high"), polarity).Failure?
    ensures AnalyzeSentiment(Text("Apple stock surges to record high"), polarity) == 0.5
  {
  }

  /** Both scorers share the guard: on anything that is not text they agree on 0.0. */
  lemma GuardsAgree(headline: Cell, polarity: string -> Polarity)
    requires !headline.Text?
    ensures AnalyzeSentimentUtility(headline, polarity) == Success(0.0)
    ensures AnalyzeSentimentUtilityFixed(headline, polarity) == Success(AnalyzeSentiment(headline, polarity))
  {
  }

  /** The three labels, listed in their natural order. */
  datatype Label = Negative | Neutral | Positive

  function Rank(l: Label): (n: int) {
    match l
    case Negative => 0
    case Neutral => 1
    case Positive => 2
  }

  /** Fixed thresholds: above 0.1 is positive, below -0.1 is negative, the
      closed band between them (boundaries included) is neutral. */
  function SentimentLabel(score: real): (l: Label)
    ensures l == Positive <==> score > 0.1
    ensures l == Negative <==> score < -0.1
    ensures l == Neutral <==> -0.1 <= score <= 0.1
  {
    if score > 0.1 then Positive
    else if score < -0.1 then Negative
    else Neutral
  }

  /** The labelling is monotone: a higher score never gets a lower label. */
  lemma LabelMonotone(a: real, b: real)
    requires a <= b
    ensures Rank(SentimentLabel(a)) <= Rank(SentimentLabel(b))
  {
  }

  /** The thresholds themselves are neutral; just past them the label changes. */
  lemma LabelBoundaries()
    ensures SentimentLabel(0.1) == Neutral && SentimentLabel(-0.1) == Neutral
    ensures SentimentLabel(0.1000001) == Positive && SentimentLabel(-0.1000001) == Negative
  {
  }
}

=== FILE: series.dfy ===
/**
  Column transformations of pandas used on the Close prices: the trailing
  rolling mean and the percentage change. The input column has no missing
  values; the output marks undefined rows with NaN, as pandas does.
 */
module Series {
  import opened Floats
  import opened Stats

  /** Whether the trailing window of `window` rows ending at row `i` lies
      inside the column (pandas' default `min_periods == window`). */
  predicate WindowFull(i: nat, window: nat) {
    1 <= window <= i + 1
  }

  /** The rows of the trailing window ending at row `i`. */
  function Window(xs: seq<real>, i: nat, window: nat): (w: seq<real>)
    requires i < |xs| && WindowFull(i, window)
  {
    xs[i + 1 - window..i + 1]
  }

  /** Reference definition of `rolling(window).mean()`: row `i` is the mean
      of the window ending there, or NaN while fewer than `window` rows exist. */
  function RollingMean(xs: seq<real>, window: nat): (r: seq<Float>)
    ensures |r| == |xs|
  {
    seq(|xs|, i requires 0 <= i < |xs| =>
      if WindowFull(i, window) then Finite(Mean(Window(xs, i, window))) else NaN)
  }

  /** The rolling mean as pandas computes it: one pass keeping the running
      sum of the window, adding the row that enters and removing the row
      that leaves. */
  method RollingMeanSliding(xs: seq<real>, window: nat) returns (r: seq<Float>)
    ensures |r| == |xs|
    ensures forall i :: 0 <= i < |xs| && !WindowFull(i, window) ==> r[i] == NaN
    ensures forall i :: 0 <= i < |xs| && WindowFull(i, window) ==>
              r[i] == Finite(Mean(Window(xs, i, window)))
  {
    r := [];
    var sum := 0.0;
    var i := 0;
    while i < |xs|
      invariant 0 <= i <= |xs|
      invariant |r| == i
      invariant forall k :: 0 <= k < i && !WindowFull(k, window) ==> r[k] == NaN
      invariant forall k :: 0 <= k < i && WindowFull(k, window) ==>
                  r[k] == Finite(Mean(Window(xs, k, window)))
      invariant sum == RunningSum(xs, i, window)
    {
      SlideStep(xs, i, window);
      sum := sum + xs[i] - if i >= window then xs[i - window] else 0.0;
      assert sum == RunningSum(xs, i + 1, window);
      var cell := NaN;
      if WindowFull(i, window) {
        cell := Finite(sum / window as real);
        assert cell == Finite(Mean(Window(xs, i, window)));
      }
      r := r + [cell];
      i := i + 1;
    }
  }

  /** The sum kept by the sliding pass after `i` rows: the last `window` of them. */
  function RunningSum(xs: seq<real>, i: nat, window: nat): (s: real)
    requires i <= |xs|
  {
    Sum(xs[..i]) - Sum(xs[..if i < window then 0 else i - window])
  }

  /** One step of the sliding pass: the entering row is added, the leaving
      row removed, and once the window is full the sum over its size is the
      window's mean. */
  lemma SlideStep(xs: seq<real>, i: nat, window: nat)
    requires i < |xs|
    ensures RunningSum(xs, i + 1, window) ==
              RunningSum(xs, i, window) + xs[i] - if i >= window then xs[i - window] else 0.0
    ensures WindowFull(i, window) ==>
              RunningSum(xs, i + 1, window) / window as real == Mean(Window(xs, i, window))
  {
    PrefixSumStep(xs, i);
    if i >= window {
      PrefixSumStep(xs, i - window);
    }
    if WindowFull(i, window) {
      WindowSum(xs, i, window);
    }
  }

  lemma PrefixSumStep(xs: seq<real>, i: nat)
    requires i < |xs|
    ensures Sum(xs[..i + 1]) == Sum(xs[..i]) + xs[i]
  {
    assert xs[..i + 1][..i] == xs[..i];
  }

  /** The window's sum is the difference of two prefix sums. */
  lemma WindowSum(xs: seq<real>, i: nat, window: nat)
    requires i < |xs| && WindowFull(i, window)
    ensures Sum(Window(xs, i, window)) == Sum(xs[..i + 1]) - Sum(xs[..i + 1 - window])
  {
    SumSlice(xs, i + 1 - window, i + 1);
  }

  /** `shift(1)`: each row takes the previous row's value; NaN enters at the top. */
  function Shifted(xs: seq<real>): (r: seq<Float>)
    ensures |r| == |xs|
  {
    seq(|xs|, i requires 0 <= i < |xs| => if i == 0 then NaN else Finite(xs[i - 1]))
  }

  /** `pct_change()`, computed as pandas does: the column divided by its
      shifted self, minus one. */
  function PctChange(xs: seq<real>): (r: seq<Float>)
    ensures |r| == |xs|
    ensures |xs| > 0 ==> r[0] == NaN
    ensures forall t :: 1 <= t < |xs| && xs[t - 1] != 0.0 ==>
              r[t] == Finite((xs[t] - xs[t - 1]) / xs[t - 1])
    ensures forall t :: 1 <= t < |xs| && xs[t - 1] == 0.0 ==>
              r[t] == if xs[t] == 0.0 then NaN else Inf(xs[t] > 0.0)
  {
    var prev := Shifted(xs);
    var r := seq(|xs|, t requires 0 <= t < |xs| => RatioChange(xs[t], prev[t]));
    forall t | 1 <= t < |xs|
      ensures xs[t - 1] != 0.0 ==> r[t] == Finite((xs[t] - xs[t - 1]) / xs[t - 1])
      ensures xs[t - 1] == 0.0 ==> r[t] == if xs[t] == 0.0 then NaN else Inf(xs[t] > 0.0)
    {
      RatioChangeCases(xs[t], xs[t - 1]);
    }
    r
  }

  /** The percentage change inverts: one plus the change is the ratio of
      the current value to the previous one, whenever the previous value is
      non-zero. */
  lemma PctChangeRecovers(xs: seq<real>, t: nat)
    requires 1 <= t < |xs| && xs[t - 1] != 0.0
    ensures PctChange(xs)[t].Finite?
    ensures 1.0 + PctChange(xs)[t].v == xs[t] / xs[t - 1]
  {
    RatioMinusOne(xs[t], xs[t - 1]);
  }

  /** One row of `pct_change()`: the value over the previous one, minus one. */
  function RatioChange(x: real, prev: Float): (r: Float) {
    Sub(Div(Finite(x), prev), Finite(1.0))
  }

  lemma RatioChangeCases(x: real, y: real)
    ensures RatioChange(x, NaN) == NaN
    ensures y != 0.0 ==> RatioChange(x, Finite(y)) == Finite((x - y) / y)
    ensures y == 0.0 ==> RatioChange(x, Finite(y)) == if x == 0.0 then NaN else Inf(x > 0.0)
  {
    if y != 0.0 {
      RatioMinusOne(x, y);
    }
  }

  lemma RatioMinusOne(x: real, y: real)
    requires y != 0.0
    ensures x / y - 1.0 == (x - y) / y
  {
    var q := (x - y) / y;
    assert q * y == x - y;
    assert (q + 1.0) * y == x;
    QuotientUnique(x, y, q + 1.0);
  }
}

=== FILE: stats.dfy ===
/** Exact-real statistics over a column without missing values. */
module Stats {

  function Sum(xs: seq<real>): (s: real) {
    if |xs| == 0 then 0.0 else Sum(xs[..|xs| - 1]) + xs[|xs| - 1]
  }

  function Mean(xs: seq<real>): (m: real)
    requires |xs| > 0
  {
    Sum(xs) / |xs| as real
  }

  function Min(xs: seq<real>): (m: real)
    requires |xs| > 0
    ensures forall i :: 0 <= i < |xs| ==> m <= xs[i]
    ensures exists i :: 0 <= i < |xs| && m == xs[i]
  {
    if |xs| == 1 then xs[0]
    else
      var m' := Min(xs[..|xs| - 1]);
      assert forall i :: 0 <= i < |xs| - 1 ==> xs[..|xs| - 1][i] == xs[i];
      if xs[|xs| - 1] < m' then xs[|xs| - 1] else m'
  }

  function Max(xs: seq<real>): (m: real)
    requires |xs| > 0
    ensures forall i :: 0 <= i < |xs| ==> xs[i] <= m
    ensures exists i :: 0 <= i < |xs| && m == xs[i]
  {
    if |xs| == 1 then xs[0]
    else
      var m' := Max(xs[..|xs| - 1]);
      assert forall i :: 0 <= i < |xs| - 1 ==> xs[..|xs| - 1][i] == xs[i];
      if xs[|xs| - 1] > m' then xs[|xs| - 1] else m'
  }

  /** The sum of squared deviations from `m`. */
  function SquaredDeviation(xs: seq<real>, m: real): (d: real) {
    if |xs| == 0 then 0.0
    else SquaredDeviation(xs[..|xs| - 1], m) + (xs[|xs| - 1] - m) * (xs[|xs| - 1] - m)
  }

  /** A sum of values bounded below by `lo` is at least `|xs| * lo`, and likewise above. */
  lemma {:induction false} SumBounds(xs: seq<real>, lo: real, hi: real)
    requires forall i :: 0 <= i < |xs| ==> lo <= xs[i] <= hi
    ensures |xs| as real * lo <= Sum(xs) <= |xs| as real * hi
  {
    if |xs| > 0 {
      var init := xs[..|xs| - 1];
      assert forall i :: 0 <= i < |init| ==> init[i] == xs[i];
      SumBounds(init, lo, hi);
    }
  }

  /** The mean of a non-empty column lies between its least and its greatest value. */
  lemma MeanWithinRange(xs: seq<real>)
    requires |xs| > 0
    ensures Min(xs) <= Mean(xs) <= Max(xs)
  {
    MeanBounds(xs, Min(xs), Max(xs));
  }

  /** Any common bounds of the values also bound their mean. */
  lemma MeanBounds(xs: seq<real>, lo: real, hi: real)
    requires |xs| > 0
    requires forall i :: 0 <= i < |xs| ==> lo <= xs[i] <= hi
    ensures lo <= Mean(xs) <= hi
  {
    SumBounds(xs, lo, hi);
    QuotientBounds(Sum(xs), |xs| as real, lo, hi);
  }

  lemma QuotientBounds(s: real, n: real, lo: real, hi: real)
    requires 0.0 < n && n * lo <= s <= n * hi
    ensures lo <= s / n <= hi
  {
  }

  /** A sum of non-negative values is non-negative, and positive exactly when some value is. */
  lemma {:induction false} SumNonNegative(xs: seq<real>)
    requires forall i :: 0 <= i < |xs| ==> 0.0 <= xs[i]
    ensures 0.0 <= Sum(xs)
    ensures 0.0 < Sum(xs) <==> exists i :: 0 <= i < |xs| && 0.0 < xs[i]
  {
    if |xs| > 0 {
      var init := xs[..|xs| - 1];
      assert forall i :: 0 <= i < |init| ==> init[i] == xs[i];
      SumNonNegative(init);
      if 0.0 < Sum(init) {
        var i :| 0 <= i < |init| && 0.0 < init[i];
        assert 0.0 < xs[i];
      }
    }
  }

  lemma {:induction false} SquaredDeviationNonNegative(xs: seq<real>, m: real)
    ensures 0.0 <= SquaredDeviation(xs, m)
  {
    if |xs| > 0 {
      SquaredDeviationNonNegative(xs[..|xs| - 1], m);
      var d := xs[|xs| - 1] - m;
      assert 0.0 <= d * d;
    }
  }

  /** Sum of a slice as a difference of prefix sums. */
  lemma {:induction false} SumSlice(xs: seq<real>, a: nat, b: nat)
    requires a <= b <= |xs|
    ensures Sum(xs[a..b]) == Sum(xs[..b]) - Sum(xs[..a])
  {
    if a < b {
      SumSlice(xs, a, b - 1);
      assert xs[a..b][..b - 1 - a] == xs[a..b - 1];
      assert xs[..b][..b - 1] == xs[..b - 1];
    } else {
      assert xs[a..b] == [];
    }
  }

  /** The quotient is the unique solution of `z * y == a`. */
  lemma QuotientUnique(a: real, y: real, z: real)
    requires y != 0.0 && z * y == a
    ensures z == a / y
  {
  }

  /** The mean of non-negative values is non-negative, and positive exactly when some value is. */
  lemma MeanSign(xs: seq<real>)
    requires |xs| > 0
    requires forall i :: 0 <= i < |xs| ==> 0.0 <= xs[i]
    ensures 0.0 <= Mean(xs)
    ensures 0.0 < Mean(xs) <==> exists i :: 0 <= i < |xs| && 0.0 < xs[i]
  {
    SumNonNegative(xs);
  }
}

=== FILE: technical.dfy ===
/**
  The technical analyzer: simple moving average, relative strength index and
  the RSI trading signal, over a Close column without missing values.
 */
module Technical {
  import opened Wrappers
  import opened Floats
  import opened Stats
  import opened Series

  /** The default windows of `calculate_sma` and `calculate_rsi`. */
  const SmaDefaultWindow: nat := 20
  const RsiDefaultWindow: nat := 14

  /** `calculate_sma`: the trailing rolling mean of the Close column. */
  function Sma(closes: seq<real>, window: nat): (r: seq<Float>)
    ensures |r| == |closes|
  {
    RollingMean(closes, window)
  }

  /** Each row of the moving average: NaN before the first full window, then
      the mean of the window, which lies between the window's extremes. */
  lemma SmaShape(closes: seq<real>, window: nat)
    ensures |Sma(closes, window)| == |closes|
    ensures forall i :: 0 <= i < |closes| && !WindowFull(i, window) ==> Sma(closes, window)[i] == NaN
    ensures forall i :: 0 <= i < |closes| && WindowFull(i, window) ==>
              && Sma(closes, window)[i] == Finite(Mean(Window(closes, i, window)))
              && Min(Window(closes, i, window)) <= Sma(closes, window)[i].v <= Max(Window(closes, i, window))
  {
    forall i | 0 <= i < |closes| && WindowFull(i, window) {
      MeanWithinRange(Window(closes, i, window));
    }
  }

  /** The five-day average of the ten-day sample series: rows 0 to 3 are
      NaN and row 4 is the mean of the first five closes, 103. */
  lemma SmaExample()
    ensures var sma := Sma([100.0, 102.0, 101.0, 105.0, 107.0, 106.0, 108.0, 110.0, 109.0, 111.0], 5);
            && |sma| == 10
            && sma[0] == sma[1] == sma[2] == sma[3] == NaN
            && sma[4] == Finite(103.0)
  {
    var closes := [100.0, 102.0, 101.0, 105.0, 107.0, 106.0, 108.0, 110.0, 109.0, 111.0];
    var w := Window(closes, 4, 5);
    assert w == [100.0, 102.0, 101.0, 105.0, 107.0];
    assert Sum(w) == 515.0 by {
      assert Sum([100.0]) == 100.0 by { assert [100.0][..0] == []; }
      assert Sum([100.0, 102.0]) == 202.0 by { assert [100.0, 102.0][..1] == [100.0]; }
      assert Sum([100.0, 102.0, 101.0]) == 303.0 by {
        assert [100.0, 102.0, 101.0][..2] == [100.0, 102.0];
      }
      assert Sum([100.0, 102.0, 101.0, 105.0]) == 408.0 by {
        assert [100.0, 102.0, 101.0, 105.0][..3] == [100.0, 102.0, 101.0];
      }
      assert w[..4] == [100.0, 102.0, 101.0, 105.0];
    }
  }

  /** `diff()`: each row minus the previous one; NaN in the first row. */
  function Diff(closes: seq<real>): (d: seq<Float>)
    ensures |d| == |closes|
    ensures |closes| > 0 ==> d[0] == NaN
    ensures forall i :: 1 <= i < |closes| ==> d[i] == Finite(closes[i] - closes[i - 1])
  {
    var prev := Shifted(closes);
    seq(|closes|, i requires 0 <= i < |closes| => Sub(Finite(closes[i]), prev[i]))
  }

  /** `delta.where(delta > 0, 0)` on one row: a NaN fails the test and becomes 0. */
  function GainOf(delta: Float): (g: real) {
    if Above(delta, 0.0) && delta.Finite? then delta.v else 0.0
  }

  /** `-delta.where(delta < 0, 0)` on one row: a NaN fails the test and becomes 0. */
  function LossOf(delta: Float): (l: real) {
    if Below(delta, 0.0) && delta.Finite? then -delta.v else 0.0
  }

  function Gains(closes: seq<real>): (g: seq<real>)
    ensures |g| == |closes|
  {
    var d := Diff(closes);
    seq(|closes|, i requires 0 <= i < |closes| => GainOf(d[i]))
  }

  function Losses(closes: seq<real>): (l: seq<real>)
    ensures |l| == |closes|
  {
    var d := Diff(closes);
    seq(|closes|, i requires 0 <= i < |closes| => LossOf(d[i]))
  }

  /** Gains and losses split each price change into its non-negative parts:
      the first row contributes 0 to both, and at every later row the gain
      minus the loss is the change, with at most one of them non-zero. */
  lemma GainsLossesSplit(closes: seq<real>)
    ensures |Gains(closes)| == |Losses(closes)| == |closes|
    ensures |closes| > 0 ==> Gains(closes)[0] == 0.0 && Losses(closes)[0] == 0.0
    ensures forall i :: 0 <= i < |closes| ==> 0.0 <= Gains(closes)[i] && 0.0 <= Losses(closes)[i]
    ensures forall i :: 1 <= i < |closes| ==>
              && Gains(closes)[i] - Losses(closes)[i] == closes[i] - closes[i - 1]
              && (Gains(closes)[i] == 0.0 || Losses(closes)[i] == 0.0)
  {
  }

  /** `100 - 100 / (1 + rs)` with `rs = gain / loss`, in IEEE arithmetic. */
  function RsiOf(gain: Float, loss: Float): (r: Float) {
    Sub(Finite(100.0), Div(Finite(100.0), Add(Finite(1.0), Div(gain, loss))))
  }

  /** `calculate_rsi`: rolling means of gains and losses combined row by row. */
  function Rsi(closes: seq<real>, window: nat): (r: seq<Float>)
    ensures |r| == |closes|
  {
    var avgGain := RollingMean(Gains(closes), window);
    var avgLoss := RollingMean(Losses(closes), window);
    seq(|closes|, i requires 0 <= i < |closes| => RsiOf(avgGain[i], avgLoss[i]))
  }

  /** The three outcomes of the RSI formula on non-negative averages: a value
      in [0, 100) while losses are positive, exactly 100 when only gains are
      (division by zero yields +inf and 100 / inf is 0), and NaN when both
      averages are zero. */
  lemma RsiOfCases(gain: real, loss: real)
    requires 0.0 <= gain && 0.0 <= loss
    ensures 0.0 < loss ==>
              && RsiOf(Finite(gain), Finite(loss)) == Finite(100.0 * gain / (gain + loss))
              && 0.0 <= 100.0 * gain / (gain + loss) < 100.0
    ensures loss == 0.0 && 0.0 < gain ==> RsiOf(Finite(gain), Finite(loss)) == Finite(100.0)
    ensures loss == 0.0 && gain == 0.0 ==> RsiOf(Finite(gain), Finite(loss)) == NaN
  {
    var g, l := Finite(gain), Finite(loss);
    if 0.0 < loss {
      var q := gain / loss;
      assert Div(g, l) == Finite(q);
      RsiArithmetic(gain, loss);
      assert 0.0 <= q;
      assert Add(Finite(1.0), Finite(q)) == Finite(1.0 + q);
      assert Div(Finite(100.0), Finite(1.0 + q)) == Finite(100.0 / (1.0 + q));
    } else if 0.0 < gain {
      assert Div(g, l) == PosInf;
      assert Add(Finite(1.0), PosInf) == PosInf;
      assert Div(Finite(100.0), PosInf) == Finite(0.0);
    } else {
      assert Div(g, l) == NaN;
    }
  }

  lemma RsiArithmetic(g: real, l: real)
    requires 0.0 <= g && 0.0 < l
    ensures 100.0 - 100.0 / (1.0 + g / l) == 100.0 * g / (g + l)
    ensures 0.0 <= 100.0 * g / (g + l) < 100.0
  {
    var q := g / l;
    assert q * l == g;
    var a := 100.0 * l / (g + l);
    var b := 100.0 * g / (g + l);
    assert a * (g + l) == 100.0 * l;
    assert b * (g + l) == 100.0 * g;
    var m := (1.0 + q) * l;
    assert m == g + l;
    assert a * m == 100.0 * l;
    assert (a * (1.0 + q)) * l == a * m;
    QuotientUnique(100.0 * l, l, a * (1.0 + q));
    QuotientUnique(100.0 * l, l, 100.0);
    assert a * (1.0 + q) == 100.0;
    QuotientUnique(100.0, 1.0 + q, a);
    assert (a + b) * (g + l) == 100.0 * (g + l);
    QuotientUnique(100.0 * (g + l), g + l, a + b);
    QuotientUnique(100.0 * (g + l), g + l, 100.0);
    assert a + b == 100.0;
    QuotientBounds(100.0 * g, g + l, 0.0, 100.0);
  }

  /** The average gain and the average loss over the window ending at row `i`. */
  function AvgGain(closes: seq<real>, window: nat, i: nat): (g: real)
    requires i < |closes| && WindowFull(i, window)
  {
    Mean(Window(Gains(closes), i, window))
  }

  function AvgLoss(closes: seq<real>, window: nat, i: nat): (l: real)
    requires i < |closes| && WindowFull(i, window)
  {
    Mean(Window(Losses(closes), i, window))
  }

  /** One row after the first full window: the RSI formula applied to the
      window averages, which are both non-negative. */
  lemma RsiRow(closes: seq<real>, window: nat, i: nat)
    requires i < |closes| && WindowFull(i, window)
    ensures 0.0 <= AvgGain(closes, window, i) && 0.0 <= AvgLoss(closes, window, i)
    ensures Rsi(closes, window)[i] == RsiOf(Finite(AvgGain(closes, window, i)), Finite(AvgLoss(closes, window, i)))
  {
    WindowsNonNegative(closes, window, i);
    MeanSign(Window(Gains(closes), i, window));
    MeanSign(Window(Losses(closes), i, window));
  }

  lemma WindowsNonNegative(closes: seq<real>, window: nat, i: nat)
    requires i < |closes| && WindowFull(i, window)
    ensures forall j :: 0 <= j < window ==> 0.0 <= Window(Gains(closes), i, window)[j]
    ensures forall j :: 0 <= j < window ==> 0.0 <= Window(Losses(closes), i, window)[j]
  {
    GainsLossesSplit(closes);
  }

  /** Row by row, the RSI is NaN before the first full window; after it, it
      follows the three cases of `RsiOfCases` on the window averages, so
      every row is NaN or a finite value in [0, 100]. */
  lemma RsiShape(closes: seq<real>, window: nat)
    ensures forall i :: 0 <= i < |closes| && !WindowFull(i, window) ==> Rsi(closes, window)[i] == NaN
    ensures forall i :: 0 <= i < |closes| && WindowFull(i, window) ==>
              var g, l := AvgGain(closes, window, i), AvgLoss(closes, window, i);
              && 0.0 <= g && 0.0 <= l
              && (0.0 < l ==> Rsi(closes, window)[i] == Finite(100.0 * g / (g + l)))
              && (l == 0.0 && 0.0 < g ==> Rsi(closes, window)[i] == Finite(100.0))
              && (l == 0.0 && g == 0.0 ==> Rsi(closes, window)[i] == NaN)
    ensures forall i :: 0 <= i < |closes| ==>
              || Rsi(closes, window)[i] == NaN
              || (Rsi(closes, window)[i].Finite? && 0.0 <= Rsi(closes, window)[i].v <= 100.0)
  {
    forall i | 0 <= i < |closes| && WindowFull(i, window)
      ensures var g, l := AvgGain(closes, window, i), AvgLoss(closes, window, i);
              && 0.0 <= g && 0.0 <= l
              && (0.0 < l ==> Rsi(closes, window)[i] == Finite(100.0 * g / (g + l)))
              && (l == 0.0 && 0.0 < g ==> Rsi(closes, window)[i] == Finite(100.0))
              && (l == 0.0 && g == 0.0 ==> Rsi(closes, window)[i] == NaN)
      ensures || Rsi(closes, window)[i] == NaN
              || (Rsi(closes, window)[i].Finite? && 0.0 <= Rsi(closes, window)[i].v <= 100.0)
    {
      RsiRowCases(closes, window, i, AvgGain(closes, window, i), AvgLoss(closes, window, i));
    }
  }

  /** The cases of `RsiOfCases` read on one row of the column. */
  lemma RsiRowCases(closes: seq<real>, window: nat, i: nat, g: real, l: real)
    requires i < |closes| && WindowFull(i, window)
    requires g == AvgGain(closes, window, i) && l == AvgLoss(closes, window, i)
    ensures 0.0 <= g && 0.0 <= l
    ensures 0.0 < l ==> Rsi(closes, window)[i] == Finite(100.0 * g / (g + l)) && 0.0 <= 100.0 * g / (g + l) < 100.0
    ensures l == 0.0 && 0.0 < g ==> Rsi(closes, window)[i] == Finite(100.0)
    ensures l == 0.0 && g == 0.0 ==> Rsi(closes, window)[i] == NaN
  {
    RsiRow(closes, window, i);
    RsiOfCases(g, l);
  }

  /** A row of the RSI is defined exactly when its window is full and the
      price changed at least once inside it (the first row has no change). */
  lemma RsiDefinedIff(closes: seq<real>, window: nat, i: nat)
    requires i < |closes|
    ensures Rsi(closes, window)[i] != NaN <==>
              && WindowFull(i, window)
              && exists k :: i + 1 - window <= k <= i && Changed(closes, k)
  {
    if WindowFull(i, window) {
      RsiRow(closes, window, i);
      RsiOfCases(AvgGain(closes, window, i), AvgLoss(closes, window, i));
      AveragesPositiveIff(closes, window, i);
    }
  }

  /** Row `k` carries a price change (the first row carries none). */
  predicate Changed(closes: seq<real>, k: int) {
    1 <= k < |closes| && closes[k] != closes[k - 1]
  }

  /** A row has a positive gain or a positive loss exactly when its price changed. */
  lemma MovedIff(closes: seq<real>, k: nat)
    requires k < |closes|
    ensures (0.0 < Gains(closes)[k] || 0.0 < Losses(closes)[k]) <==> Changed(closes, k)
  {
    GainsLossesSplit(closes);
  }

  /** Some average over the window is positive exactly when the price
      changed inside the window. */
  lemma AveragesPositiveIff(closes: seq<real>, window: nat, i: nat)
    requires i < |closes| && WindowFull(i, window)
    ensures (0.0 < AvgGain(closes, window, i) || 0.0 < AvgLoss(closes, window, i)) <==>
              exists k :: i + 1 - window <= k <= i && Changed(closes, k)
  {
    if exists k :: i + 1 - window <= k <= i && Changed(closes, k) {
      var k :| i + 1 - window <= k <= i && Changed(closes, k);
      ChangeMakesAveragePositive(closes, window, i, k);
    }
    if 0.0 < AvgGain(closes, window, i) || 0.0 < AvgLoss(closes, window, i) {
      PositiveAverageHasChange(closes, window, i);
    }
  }

  /** A price change inside the window makes one of the averages positive. */
  lemma ChangeMakesAveragePositive(closes: seq<real>, window: nat, i: nat, k: nat)
    requires i < |closes| && WindowFull(i, window)
    requires i + 1 - window <= k <= i && Changed(closes, k)
    ensures 0.0 < AvgGain(closes, window, i) || 0.0 < AvgLoss(closes, window, i)
  {
    var lo := i + 1 - window;
    var gw, lw := Window(Gains(closes), i, window), Window(Losses(closes), i, window);
    WindowsNonNegative(closes, window, i);
    MovedIff(closes, k);
    assert gw[k - lo] == Gains(closes)[k] && lw[k - lo] == Losses(closes)[k];
    MeanSign(gw);
    MeanSign(lw);
  }

  /** A positive average has a price change inside the window behind it. */
  lemma PositiveAverageHasChange(closes: seq<real>, window: nat, i: nat)
    requires i < |closes| && WindowFull(i, window)
    requires 0.0 < AvgGain(closes, window, i) || 0.0 < AvgLoss(closes, window, i)
    ensures exists k :: i + 1 - window <= k <= i && Changed(closes, k)
  {
    var k: nat;
    if 0.0 < AvgGain(closes, window, i) {
      k := GainSlot(closes, window, i);
    } else {
      k := LossSlot(closes, window, i);
    }
    MovedIff(closes, k);
    assert Changed(closes, k);
  }

  /** A positive average gain points at a row of the window with a positive gain. */
  lemma GainSlot(closes: seq<real>, window: nat, i: nat) returns (k: nat)
    requires i < |closes| && WindowFull(i, window)
    requires 0.0 < AvgGain(closes, window, i)
    ensures i + 1 - window <= k <= i && 0.0 < Gains(closes)[k]
  {
    GainsLossesSplit(closes);
    k := PositiveMeanSlot(Gains(closes), i, window);
  }

  /** A positive average loss points at a row of the window with a positive loss. */
  lemma LossSlot(closes: seq<real>, window: nat, i: nat) returns (k: nat)
    requires i < |closes| && WindowFull(i, window)
    requires 0.0 < AvgLoss(closes, window, i)
    ensures i + 1 - window <= k <= i && 0.0 < Losses(closes)[k]
  {
    GainsLossesSplit(closes);
    k := PositiveMeanSlot(Losses(closes), i, window);
  }

  /** Over non-negative values, a positive window mean has a positive entry. */
  lemma PositiveMeanSlot(xs: seq<real>, i: nat, window: nat) returns (k: nat)
    requires i < |xs| && WindowFull(i, window)
    requires forall j :: 0 <= j < |xs| ==> 0.0 <= xs[j]
    requires 0.0 < Mean(Window(xs, i, window))
    ensures i + 1 - window <= k <= i && 0.0 < xs[k]
  {
    var w := Window(xs, i, window);
    assert forall j :: 0 <= j < |w| ==> w[j] == xs[i + 1 - window + j];
    MeanSign(w);
    var j :| 0 <= j < |w| && 0.0 < w[j];
    k := i + 1 - window + j;
  }

  /** The signal strings of `get_trading_signals`. */
  datatype Signal = Oversold | Overbought | Neutral

  /** Thresholds on the latest RSI: below 30 oversold, above 70 overbought,
      anything else neutral, including NaN, for which both comparisons fail. */
  function Classify(rsi: Float): (s: Signal)
    ensures s == Oversold <==> Below(rsi, 30.0)
    ensures s == Overbought <==> Above(rsi, 70.0)
    ensures rsi == NaN ==> s == Neutral
  {
    if Below(rsi, 30.0) then Oversold
    else if Above(rsi, 70.0) then Overbought
    else Neutral
  }

  /** `get_trading_signals`: no signal unless the RSI column has been
      computed; otherwise the classification of its last row, where reading
      the last row of an empty column raises. */
  function TradingSignals(rsi: Option<seq<Float>>): (r: Result<Option<Signal>>)
    ensures rsi.None? ==> r == Success(None)
    ensures rsi.Some? && |rsi.value| == 0 ==> r == Failure(EmptySeries)
    ensures rsi.Some? && |rsi.value| > 0 ==> r == Success(Some(Classify(rsi.value[|rsi.value| - 1])))
  {
    match rsi
    case None => Success(None)
    case Some(column) =>
      if |column| == 0 then Failure(EmptySeries)
      else Success(Some(Classify(column[|column| - 1])))
  }

  /** Fewer rows than the window: the last RSI is NaN and the signal is still
      produced, as neutral. */
  lemma ShortSeriesNeutral(closes: seq<real>, window: nat)
    requires 0 < |closes| < window
    ensures TradingSignals(Some(Rsi(closes, window))) == Success(Some(Neutral))
  {
    RsiShape(closes, window);
  }

  /** The ten-day sample series under the default windows: both indicators
      keep one row per close, the 20-day average is NaN throughout, and the
      14-day RSI never fills a window, so the signal is neutral. */
  lemma SampleDefaultWindows()
    ensures var closes := [100.0, 102.0, 101.0, 105.0, 107.0, 106.0, 108.0, 110.0, 109.0, 111.0];
            && |Sma(closes, SmaDefaultWindow)| == |Rsi(closes, RsiDefaultWindow)| == 10
            && (forall i :: 0 <= i < 10 ==> Sma(closes, SmaDefaultWindow)[i] == NaN)
            && TradingSignals(Some(Rsi(closes, RsiDefaultWindow))) == Success(Some(Neutral))
  {
    var closes := [100.0, 102.0, 101.0, 105.0, 107.0, 106.0, 108.0, 110.0, 109.0, 111.0];
    SmaShape(closes, SmaDefaultWindow);
    ShortSeriesNeutral(closes, RsiDefaultWindow);
  }

  /** The price rises at every step. */
  predicate Rising(closes: seq<real>) {
    forall k :: 1 <= k < |closes| ==> RoseAt(closes, k)
  }

  /** Row `k` closes above row `k - 1`. */
  predicate RoseAt(closes: seq<real>, k: int) {
    1 <= k < |closes| && closes[k - 1] < closes[k]
  }

  /** A price that rises at every step, over at least two rows and at least
      as many rows as the window, has no losses in the last window and some
      gain, so the RSI is 100 and the signal is overbought. */
  lemma RisingSeriesOverbought(closes: seq<real>, window: nat)
    requires 1 <= window <= |closes| && 2 <= |closes|
    requires Rising(closes)
    ensures TradingSignals(Some(Rsi(closes, window))) == Success(Some(Overbought))
  {
    RisingLastRsi(closes, window);
    OverboughtAtHundred(Rsi(closes, window));
  }

  lemma OverboughtAtHundred(rsi: seq<Float>)
    requires |rsi| > 0 && rsi[|rsi| - 1] == Finite(100.0)
    ensures TradingSignals(Some(rsi)) == Success(Some(Overbought))
  {
  }

  /** On a rising series the last RSI is exactly 100. */
  lemma RisingLastRsi(closes: seq<real>, window: nat)
    requires 1 <= window <= |closes| && 2 <= |closes|
    requires Rising(closes)
    ensures |Rsi(closes, window)| > 0 && Rsi(closes, window)[|Rsi(closes, window)| - 1] == Finite(100.0)
  {
    var n := |closes|;
    RisingAverages(closes, window);
    RsiRowCases(closes, window, n - 1, AvgGain(closes, window, n - 1), AvgLoss(closes, window, n - 1));
  }

  /** On a rising series the last window has a positive average gain and no loss. */
  lemma RisingAverages(closes: seq<real>, window: nat)
    requires 1 <= window <= |closes| && 2 <= |closes|
    requires Rising(closes)
    ensures 0.0 < AvgGain(closes, window, |closes| - 1) && AvgLoss(closes, window, |closes| - 1) == 0.0
  {
    var n := |closes|;
    var gw, lw := Window(Gains(closes), n - 1, window), Window(Losses(closes), n - 1, window);
    RisingNoLosses(closes);
    assert forall j :: 0 <= j < window ==> lw[j] == Losses(closes)[n - window + j];
    ChangeAt(closes, n - 1);
    assert RoseAt(closes, n - 1);
    assert gw[window - 1] == Gains(closes)[n - 1];
    WindowsNonNegative(closes, window, n - 1);
    MeanSign(gw);
    MeanBounds(lw, 0.0, 0.0);
  }

  /** A rising series loses nothing at any row. */
  lemma RisingNoLosses(closes: seq<real>)
    requires Rising(closes)
    ensures |Losses(closes)| == |closes|
    ensures forall k :: 0 <= k < |closes| ==> Losses(closes)[k] == 0.0
  {
    forall k | 1 <= k < |closes| ensures Losses(closes)[k] == 0.0 {
      ChangeAt(closes, k);
      assert RoseAt(closes, k);
    }
  }

  /** The gain and the loss of one row after the first. */
  lemma ChangeAt(closes: seq<real>, k: nat)
    requires 1 <= k < |closes|
    ensures Gains(closes)[k] == if closes[k] > closes[k - 1] then closes[k] - closes[k - 1] else 0.0
    ensures Losses(closes)[k] == if closes[k] < closes[k - 1] then closes[k - 1] - closes[k] else 0.0
  {
    assert Diff(closes)[k] == Finite(closes[k] - closes[k - 1]);
  }
}

=== FILE: wrappers.dfy ===
/** Optional values, results and the exceptions the pipeline can raise. */
module Wrappers {

  /** An optional value: `None` stands for an attribute the analyzer has not computed yet. */
  datatype Option<+T> = None | Some(value: T)

  /** The outcome of an operation that may raise: either its value or the error it raises. */
  datatype Result<+R> = Success(value: R) | Failure(error: Error)

  /** The exceptions the modelled code raises, named after their cause. */
  datatype Error =
    | NewsNotLoaded        // ValueError("News data not loaded")
    | StockNotLoaded       // TypeError from subscripting a missing stock frame
    | UndefinedName        // NameError: a module name used without being imported
    | PolarityRaised       // an exception escaping the polarity model
    | EmptySeries          // IndexError from `iloc[-1]` on an empty series
    | LengthMismatch       // ValueError: correlation inputs of different lengths
    | TooFewObservations   // ValueError: correlation inputs shorter than two
}
